=== FILE: README.md ===
# Parking-lot platform: a Dafny model of its rules

This project models the sequential rules of a parking-lot discovery and
booking platform. The backend is Express/Mongoose and the client is React.
The modelled rules are:

- lots, sessions and users, with their defaults and enums, and the lot's
  pre-save status derivation (`full` iff occupied ≥ total);
- the `startSession` store transition, and the read handlers `getAllParkingLots`
  and `getActiveSession`;
- bearer-token authentication, the three role gates and the parking router's
  middleware table;
- the admin aggregates: revenue, active count, occupancy rate, hourly revenue
  trend, and recent-activity formatting. Also the lot CRUD handlers with their
  404 paths;
- the curated valley seed: status derivation and the name-keyed upsert ops;
- the client's validators and formatters:
  - booking form and free-slot count;
  - search suggestions;
  - session timer and running bill;
  - QR user-id extraction;
  - token expiry and login redirect;
  - profile labels;
  - password-reset checks;
- the contact endpoint: validation, credential stripping and mail composition.

Handlers are pure functions from a store and a request to a new store and a
reply (`Http.Reply`: status code, success flag, message, optional data). A
collection is a sequence in insertion order. This matters in three places:

- `findOne` returns the first match;
- a sort on `createdAt` descending is the reverse;
- the seed's `updateOne` filter hits the first lot with the name.

Foreign calls are parameters:

- `jwt.verify`, `jwtDecode` and `JSON.parse`;
- date parsing, the wall clock (`now`, in milliseconds) and fresh ids;
- the mail transport, and the server and search-service answers.

JavaScript arithmetic is written out once in `JsMath`:

- `Math.round` is half-up;
- `Math.floor` and `Math.ceil` of a quotient;
- `%` truncates toward zero.

JavaScript truthiness of `""`, `0` and `undefined` is modelled with `Option`
and explicit emptiness tests.

The model follows the code as written, including four behaviours a reader
of the handlers' names and messages would not expect:

- **Start session does not keep lot status in step.** `startSession` raises
  `occupiedSpots` with an update that bypasses the save hook. So the lot's
  `status` is not recomputed and capacity is never consulted. Starting on a
  lot with one spot and none taken leaves it `available` with one occupied;
  starting on a full lot takes it over capacity (`StartSessionIgnoresCapacity`).
- **The admin user count is always 0.** It counts the role "buyer", which the
  user model's enum does not contain.
- **Recent activity reads a field that does not exist.** Its `plate` reads a
  user `name` field, so it is absent for an existing user and "Unknown" when
  the user is missing.
- **Updating a lot skips the hook and the validators.** Only the schema's
  `trim` setter still applies, to a supplied name.

## Model

| member | source | states |
|---|---|---|
| LotModel.ParseLotType | Backend/src/models/ParkingLot.model.js:30-34 | a lot type is accepted iff it is "car", "bike" or "both", and its name reads back |
| LotModel.ParseLotStatus | Backend/src/models/ParkingLot.model.js:35-39 | a lot status is accepted iff it is "available" or "full", and its name reads back |
| LotModel.EnumNamesRoundTrip | Backend/src/models/ParkingLot.model.js:30-39 | every lot type and status survives naming then parsing |
| LotModel.PreSave | Backend/src/models/ParkingLot.model.js:45-52 | after the hook, status is full iff occupied ≥ total and available iff occupied < total; every other field is unchanged |
| LotModel.PreSaveIdempotent | Backend/src/models/ParkingLot.model.js:45-52 | running the hook twice gives the lot running it once gives |
| LotModel.PreSaveFixesOnlyStale | Backend/src/models/ParkingLot.model.js:45-52 | the hook changes a lot iff its status was inconsistent, and always leaves it consistent |
| LotModel.CreateLot | Backend/src/models/ParkingLot.model.js:5-39 | creation succeeds iff name (non-blank after trimming), lat, lon, price and total are given and the type is valid; the new lot has the trimmed name, the given lat and lon, 0 occupied, type both by default, and a consistent status |
| LotModel.NewLotDefaults | Backend/src/models/ParkingLot.model.js:26-39 | a new lot with positive capacity has 0 occupied, type both and status available |
| SessionModel.ParseVehicleType | Backend/src/models/ParkingSession.model.js:15-19 | a vehicle type is accepted iff it is "car" or "bike" |
| SessionModel.ParseSessionStatus | Backend/src/models/ParkingSession.model.js:31-35 | a session status is accepted iff it is "active" or "completed" |
| SessionModel.CreateSession | Backend/src/models/ParkingSession.model.js:4-35 | a session is created iff user, lot and a valid vehicle type are given; it starts at `now`, active, with amount 0 and no end time |
| UserModel.ParseRole | Backend/src/models/User.model.js:32-36 | a role is accepted iff it is driver, guard or superadmin |
| UserModel.RoleNamesRoundTrip | Backend/src/models/User.model.js:32-36 | role names are distinct and read back to their role |
| UserModel.NewUser | Backend/src/models/User.model.js:8-40 | a user is created iff username, email and password are present and the role is valid; first and last name default to "User" and "Name", role to driver, photo to "" |
| UserModel.InsertUser | Backend/src/models/User.model.js:18-27 | inserting a taken username or email is rejected; a success appends the user and keeps ids, usernames and emails unique |
| UserModel.FindUserById | Backend/src/models/User.model.js:7-45 | lookup by id finds a stored user with that id, and finds nothing iff no user has it |
| Auth.BearerToken | Backend/src/middleware/auth.js:13-20 | no token iff the header is missing or does not start with "Bearer "; otherwise the token is the second space-separated field |
| Auth.BearerTokenIsFirstWord | Backend/src/middleware/auth.js:20 | the token is the text after "Bearer " up to the next space |
| Auth.ClaimedUserId | Backend/src/middleware/auth.js:26 | the claimed id is a non-empty `_id`, else `id` |
| Auth.VerifyErrorReply | Backend/src/middleware/auth.js:44-63 | every verification error is a 401; "Invalid token" iff JsonWebTokenError, "Token expired" iff TokenExpiredError, "Authentication failed" otherwise |
| Auth.Authenticate | Backend/src/middleware/auth.js:10-65 | no usable header gives 401 "No token provided"; a token whose verification throws gets the reply for that error's name; a verified token whose claimed id is a stored user admits exactly that user, and admission happens only that way; 404 iff the token verifies but names no stored user |
| Auth.IsAdmin | Backend/src/middleware/auth.js:71-78 | passes iff the role is superadmin, else 403 |
| Auth.IsGuard | Backend/src/middleware/auth.js:83-90 | passes iff the role is guard, else 403 |
| Auth.IsGuardOrAdmin | Backend/src/middleware/auth.js:95-102 | passes iff IsGuard or IsAdmin would pass, that is iff the role is not driver; else 403 |
| ParkingRouter.RunChain | Backend/src/routes/parking.router.js:16-25 | an empty chain admits as is; a chain with authentication admits only stored users; a chain ending in the guard gate admits no driver |
| ParkingRouter.LotsIsPublic | Backend/src/routes/parking.router.js:16 | every request to `/lots` reaches the handler |
| ParkingRouter.AuthOnlyRoutesNeedOnlyAuthentication | Backend/src/routes/parking.router.js:17-21 | the session and booking routes answer exactly as authentication does |
| ParkingRouter.GuardRoutesNeedGuardOrAdmin | Backend/src/routes/parking.router.js:24-25 | the guard routes refuse what authentication refuses, admit authenticated guards and superadmins, and give drivers 403 |
| ParkingRouter.DriverNeverAdmittedToGuardRoute | Backend/src/routes/parking.router.js:24-25 | whatever the header, a guard route admits only a guard or superadmin |
| ParkingController.FindLot | Backend/src/controller/parking.controller.js:55 | lookup by id finds a stored lot with that id, and nothing iff none has it |
| ParkingController.IncOccupied | Backend/src/controller/parking.controller.js:55-57 | the increment adds 1 to the occupied count of each lot with the id, 0 to the others, and writes no other field |
| ParkingController.IncOccupiedAddsOne | Backend/src/controller/parking.controller.js:55-57 | with unique ids the total occupancy grows by 1 iff the lot exists |
| ParkingController.IncOccupiedFind | Backend/src/controller/parking.controller.js:55-57 | after the increment, the lot with the id reads as before with one more occupied spot |
| ParkingController.FindActive | Backend/src/controller/parking.controller.js:17-20 | finds an active session owned by the user, and nothing iff there is none |
| ParkingController.GetAllParkingLots | Backend/src/controller/parking.controller.js:5-8 | replies 200 with every lot and leaves the store unchanged |
| ParkingController.GetActiveSession | Backend/src/controller/parking.controller.js:15-22 | replies 200 with nothing iff the caller has no active session, else with one of the caller's active sessions and its lot; the store is unchanged |
| ParkingController.StartSession | Backend/src/controller/parking.controller.js:29-63 | an existing active session gives 400 with no change; a validation failure gives 500 with no change; otherwise exactly one active session of the caller for that lot and vehicle type is appended, that lot gains one occupied spot, and nothing else changes |
| ParkingController.StartSessionPreservesValid | Backend/src/controller/parking.controller.js:34-57 | at most one active session per user (and unique lot ids) hold after a start |
| ParkingController.StartSessionLots | Backend/src/controller/parking.controller.js:48-57 | after a successful start the lots are the old lots with the requested lot's counter incremented |
| ParkingController.StartSessionOccupancy | Backend/src/controller/parking.controller.js:55-57 | a successful start leaves the requested lot as it was with exactly one more occupied spot |
| ParkingController.StartSessionTotal | Backend/src/controller/parking.controller.js:55-57 | with unique lot ids a successful start on an existing lot raises the total occupancy by exactly 1 |
| ParkingController.StartSessionIgnoresCapacity | Backend/src/controller/parking.controller.js:55-57 | a full lot is taken over capacity, and a lot that becomes full keeps status available |
| AdminController.Completed | Backend/src/controller/admin.controller.js:7-8 | the revenue match keeps only completed sessions and is empty when all are active |
| AdminController.Revenue | Backend/src/controller/admin.controller.js:7-10 | revenue is 0 when no session is completed |
| AdminController.RevenueAppend | Backend/src/controller/admin.controller.js:7-10 | revenue is additive over concatenation |
| AdminController.RevenueSingle | Backend/src/controller/admin.controller.js:7-10 | one session contributes its amount iff completed, else 0 |
| AdminController.CountActive | Backend/src/controller/admin.controller.js:12 | the active count is the number of sessions the completed filter drops, and 0 iff no session is active |
| AdminController.ActivePlusCompleted | Backend/src/controller/admin.controller.js:7-12 | active and completed sessions together are all sessions |
| AdminController.OccupancyRate | Backend/src/controller/admin.controller.js:17-27 | the rate is 0 without capacity, else the integer nearest the exact 100·occupied/total with halves rounded up (the float product is not modelled, see Left out) |
| AdminController.SumsWithinCapacity | Backend/src/controller/admin.controller.js:18-19 | lots within capacity sum to 0 ≤ occupied ≤ total |
| AdminController.OccupancyRateBounded | Backend/src/controller/admin.controller.js:17-27 | with every lot within capacity the rate lies in 0..100 |
| AdminController.CountRole | Backend/src/controller/admin.controller.js:14 | a role count is 0 iff no user has that role name |
| AdminController.DashboardStats | Backend/src/controller/admin.controller.js:5-32 | the stats carry revenue, active count, lot count and the exact-rounded rate as above; the user count is 0 |
| AdminController.HourOf | Backend/src/controller/admin.controller.js:48 | a timestamp's UTC hour is below 24 |
| AdminController.GroupsFrom | Backend/src/controller/admin.controller.js:39-53 | each group is an hour with a completed session ending in the last day, carries that hour's total, and hours ascend strictly |
| AdminController.GroupsFromComplete | Backend/src/controller/admin.controller.js:39-53 | every hour with such a session has a group |
| AdminController.HourLabel | Backend/src/controller/admin.controller.js:58 | the label is five characters ending in ":00" for hours below 100 |
| AdminController.HourLabelDecodes | Backend/src/controller/admin.controller.js:58 | the label's two leading digits read back as the hour |
| AdminController.RevenueTrends | Backend/src/controller/admin.controller.js:57-60 | one labelled entry per group, in group order |
| AdminController.RevenueTrendsSpec | Backend/src/controller/admin.controller.js:37-60 | an hour has a trend entry with its label and total iff some completed session ended in that hour within the last day |
| AdminController.AmountLabel | Backend/src/controller/admin.controller.js:81 | the amount reads "NPR n" whose digits read back as the amount, or 0 for a non-positive amount |
| AdminController.FormatActivity | Backend/src/controller/admin.controller.js:76-84 | type and status are upper-cased, the amount is the "NPR" label of the session's total, plate is absent for a known user and "Unknown" otherwise, and the lot name is looked up or "Unknown" |
| AdminController.Newest | Backend/src/controller/admin.controller.js:70-74 | at most 10 sessions, newest first |
| AdminController.RecentActivity | Backend/src/controller/admin.controller.js:68-90 | at most 10 entries, the i-th formatting the i-th newest session |
| AdminController.GetAllLots | Backend/src/controller/admin.controller.js:93-100 | all lots, newest first |
| AdminController.AddParkingLot | Backend/src/controller/admin.controller.js:102-117 | an invalid lot gives 400 with no change; a valid one is appended with 201 and a consistent status; lot ids stay unique |
| AdminController.RemoveLot | Backend/src/controller/admin.controller.js:122 | removal keeps exactly the lots with other ids |
| AdminController.DeleteParkingLot | Backend/src/controller/admin.controller.js:119-130 | an unknown id gives 404 with no change; otherwise the lots are exactly those RemoveLot keeps, the id is gone, and sessions and users are untouched |
| AdminController.ApplyPatch | Backend/src/controller/admin.controller.js:135 | each of the eight fields is the patch's value when given (a name trimmed by the schema's setter) and the lot's own otherwise; the id is kept; the empty patch changes nothing |
| AdminController.PatchLot | Backend/src/controller/admin.controller.js:135 | only the lot with the id is patched |
| AdminController.UpdateParkingLot | Backend/src/controller/admin.controller.js:132-143 | an unknown id gives 404 with no change; otherwise the patched lot, with a supplied name trimmed, is returned and stored, without recomputing status |
| ValleySeed.WithStatus | Backend/src/utils/seedValleyParking.js:445-451 | status is full iff occupied ≥ total, else available; all other fields are copied |
| ValleySeed.WithStatusMatchesPreSave | Backend/src/utils/seedValleyParking.js:446 | the seed's status rule agrees with the lot model's save hook |
| ValleySeed.DeriveStatuses | Backend/src/utils/seedValleyParking.js:445 | the output has the input's length and order, one derived lot per entry |
| ValleySeed.FetchValleyParkingData | Backend/src/utils/seedValleyParking.js:9-452 | the seeded lots are the curated entries with derived status, in order |
| ValleySeed.SeededLotsAllAvailable | Backend/src/utils/seedValleyParking.js:14-451 | every curated entry has a free spot, so every seeded lot is available |
| ValleySeed.UpsertOps | Backend/src/utils/seedValleyParking.js:465-471 | one upsert per lot, in order, filtered by its name and setting the lot |
| ValleySeed.ApplyUpsert | Backend/src/utils/seedValleyParking.js:465-472 | an upsert overwrites the fields of the first lot with the name, keeping its id and every other lot, or appends a new lot when none has it; afterwards the first lot with the name carries the update |
| ValleySeed.ApplyUpsertIdempotent | Backend/src/utils/seedValleyParking.js:465-472 | applying the same upsert twice equals applying it once |
| LotDetail.AvailableSlots | frontend/src/pages/ParkingLotDetail.jsx:47-50 | free slots are 0 iff there is no lot or occupied ≥ total (missing counts read 0), else total − occupied |
| LotDetail.OccupancyPercent | frontend/src/pages/ParkingLotDetail.jsx:52-55 | at most 100; 0 when the total is missing or 0; below 100 it is the exact occupied/total·100 rounded half-up (the float product is not modelled, see Left out) |
| LotDetail.OccupancyPercentBounded | frontend/src/pages/ParkingLotDetail.jsx:52-55 | with a positive total and non-negative occupancy the percentage lies in 0..100 |
| LotDetail.HandleBook | frontend/src/pages/ParkingLotDetail.jsx:73-105 | the checks run in order and each message is given exactly when its check is the first to fail: missing times, end not after start (both parsed), slots outside 1..free slots, then a time that does not parse; a request is sent iff all pass, and carries the lot, slots and times |
| LotDetail.NoRequestWhenFull | frontend/src/pages/ParkingLotDetail.jsx:89-92 | nothing is sent for a lot with no free slot |
| LotDetail.AfterBooking | frontend/src/pages/ParkingLotDetail.jsx:107-125 | a confirmed booking resets the form to 1 slot and empty times; a refused answer keeps the form and shows the server's non-empty message, else "Booking failed."; a network failure keeps the form and shows the request-failed text |
| DashboardView.MatchingLots | frontend/src/pages/Dashboard.jsx:222-223 | keeps exactly the lots with a non-empty name containing the query |
| DashboardView.LocalMatches | frontend/src/pages/Dashboard.jsx:221-226 | the first min(5, matches) matching lots, in order, each as a lot suggestion labelled with its name, which contains the lower-cased query |
| DashboardView.PlaceSuggestions | frontend/src/pages/Dashboard.jsx:230-231 | the k-th place answer becomes the k-th suggestion, a place suggestion with its display name and coordinates; a null answer gives none |
| DashboardView.DedupeFrom | frontend/src/pages/Dashboard.jsx:235-238 | the filter keeps only input items whose label was not yet seen, leaves no repeated label, and keeps every unseen label |
| DashboardView.DedupeAppend | frontend/src/pages/Dashboard.jsx:234-238 | deduplicating a concatenation deduplicates the first part, then adds the second part's new labels in order |
| DashboardView.DedupeKeepsFirst | frontend/src/pages/Dashboard.jsx:235-238 | the first item with a label survives |
| DashboardView.LotsBeforePlaces | frontend/src/pages/Dashboard.jsx:234-238 | after the merge no place suggestion precedes a lot suggestion, and lot suggestions occupy only the first positions |
| DashboardView.DedupeHead | frontend/src/pages/Dashboard.jsx:235-238 | the first item of a non-empty list stays first after deduplication |
| DashboardView.NextSuggestions | frontend/src/pages/Dashboard.jsx:213-248 | a blank query clears the list; a failed fetch keeps it; otherwise the first min(6, n) of the n deduplicated lot matches followed by places: distinct labels, at most 5 lots, lots first, each lot matching the query |
| DashboardView.FirstMatchLeads | frontend/src/pages/Dashboard.jsx:219-241 | when some lot matches, the first suggestion is the first matching lot |
| DashboardView.LocalMatchKept | frontend/src/pages/Dashboard.jsx:219-241 | every one of the first five lot matches whose label no earlier match carries is shown |
| DashboardView.PlaceKeptWhenRoom | frontend/src/pages/Dashboard.jsx:219-241 | when the deduplicated merge has at most six items, every place with a label new to the lot matches and earlier places is shown |
| DashboardView.ClockFields | frontend/src/pages/Dashboard.jsx:343-347 | for elapsed ms ≥ 0, minutes and seconds are in 0..59 and h·3600 + m·60 + s = ⌊ms/1000⌋ |
| DashboardView.ClockReadsBack | frontend/src/pages/Dashboard.jsx:345-348 | the HH:MM:SS text splits into three digit fields, minutes and seconds two wide, whose values give the elapsed whole seconds |
| DashboardView.EffectivePrice | frontend/src/pages/Dashboard.jsx:351 | the lot's price, or 25 when it is missing or 0 |
| DashboardView.CurrentBill | frontend/src/pages/Dashboard.jsx:350-351 | the bill is the least integer not below elapsed hours × price |
| DashboardView.BillMonotone | frontend/src/pages/Dashboard.jsx:350-351 | at a non-negative price the bill never decreases as time passes |
| EntryScanner.ExtractUserId | frontend/src/pages/GuardEntryScanner.jsx:88-102 | a parsed object's truthy userId is used; any other text, including text that does not parse, is used raw |
| EntryScanner.EntryRequestFor | frontend/src/pages/GuardEntryScanner.jsx:106-123 | no request iff no lot is selected; otherwise the body pairs the user id with the selected lot |
| EntryScanner.HandleEntry | frontend/src/pages/GuardEntryScanner.jsx:105-139 | no lot gives "Please select a parking lot first" and nothing else changes; result success iff the server says so; otherwise an error with the server message, a fallback, or the network message |
| EntryScanner.HandleScan | frontend/src/pages/GuardEntryScanner.jsx:76-102 | the scanner is marked stopped iff it was running and its stop resolved (a rejected stop leaves it running); either way the request sent is the one for the extracted id |
| EntryScanner.ProfileQrChecksInOwner | frontend/src/pages/GuardEntryScanner.jsx:88-123 | scanning JSON with a non-empty user id, with a lot selected, requests entry for that id at that lot |
| EntryScanner.RawTextIsTheId | frontend/src/pages/GuardEntryScanner.jsx:88-123 | text that is not JSON, is null, or carries no user id is itself sent as the id |
| AuthContext.Restore | frontend/src/context/AuthContext.jsx:17-37 | a missing or empty stored token is not decoded and only ends loading; any other stored token is removed iff it is undecodable or exp·1000 < now, and a kept one restores its payload; loading ends in every branch |
| AuthContext.EmptyTokenKept | frontend/src/context/AuthContext.jsx:18-19 | an empty stored token stays stored and the user is left as it was |
| AuthContext.RestoreIdempotent | frontend/src/context/AuthContext.jsx:17-37 | running the start-up check twice gives what running it once gives |
| AuthContext.KeptAtExpiryInstant | frontend/src/context/AuthContext.jsx:24-28 | a token is kept at exactly exp·1000 and removed a millisecond later |
| AuthContext.LandingPath | frontend/src/context/AuthContext.jsx:49-53 | login goes to /admin iff the role is superadmin, else to /dashboard |
| AuthContext.Login | frontend/src/context/AuthContext.jsx:43-54 | the token is stored; a decodable one sets the user and redirects by role |
| AuthContext.RestoreAfterLogin | frontend/src/context/AuthContext.jsx:17-54 | a reload after logging in with an unexpired token restores the same user |
| AuthContext.Logout | frontend/src/context/AuthContext.jsx:60-64 | logout removes the token, clears the user and goes to / |
| AuthContext.LogoutUndoesLogin | frontend/src/context/AuthContext.jsx:43-64 | logging out after a login leaves what logging out alone leaves |
| ProfileView.FormatRoleLabel | frontend/src/pages/Profile.jsx:15-18 | "driver" and a missing role read "User"; any other role gets its first character upper-cased and the rest kept |
| ProfileView.RoleLabels | frontend/src/pages/Profile.jsx:15-18 | the three roles read "User", "Guard" and "Superadmin" |
| ProfileView.Initials | frontend/src/pages/Profile.jsx:245-247 | both initials upper-cased when both names exist, else the first two username characters upper-cased, else "U" |
| ProfileView.DisplayName | frontend/src/pages/Profile.jsx:276-278 | "first last" when both exist, else the username, else "User" |
| ProfileView.DisplayNameSplits | frontend/src/pages/Profile.jsx:276-278 | the heading splits back into the first name |
| ProfileView.ShowPhoto | frontend/src/pages/Profile.jsx:226 | the photo is shown iff it is non-empty and not the placeholder |
| ProfileView.QrPayloadFor | frontend/src/pages/Profile.jsx:148-154 | the QR object carries the user's id, username, email, the timestamp and action "check-in/out" |
| ProfileView.QrScansToOwner | frontend/src/pages/Profile.jsx:148-154 | the guard scanner extracts the profile's own id from that object, and with a lot selected the scan sends an entry request for that user at that lot |
| ResetPasswordForm.HandleChange | frontend/src/pages/ResetPassword.jsx:19-32 | an edit stores the field, and the match flag is true iff the confirmation is empty or equals the password |
| ResetPasswordForm.Edits | frontend/src/pages/ResetPassword.jsx:19-32 | any sequence of edits keeps the flag in step with the form |
| ResetPasswordForm.Validate | frontend/src/pages/ResetPassword.jsx:38-56 | emptiness is checked first, then equality, then length ≥ 6; the form passes iff all three hold |
| ResetPasswordForm.SubmitDisabled | frontend/src/pages/ResetPassword.jsx:152-154 | submit is enabled iff not loading, the flag holds and both fields are filled |
| ResetPasswordForm.EnabledSubmitPassesFirstChecks | frontend/src/pages/ResetPassword.jsx:38-56 | from an enabled button only the length check can still fail |
| ResetPasswordForm.HandleSubmit | frontend/src/pages/ResetPassword.jsx:34-79 | a request is sent iff validation passes; success iff the server accepts; a rejection shows its message or the fallback |
| ContactController.AppPassword | Backend/src/controller/contact.controller.js:15 | the app password has no whitespace left, is empty iff the configured one is missing or blank, and is the configured one when it has no whitespace |
| ContactController.MailSubject | Backend/src/controller/contact.controller.js:36 | the subject is "Contact: " followed by the submitted subject |
| ContactController.MailBodyLines | Backend/src/controller/contact.controller.js:37 | the body's lines are the name line, the email line, a blank line, "Message:", then the message's own lines, which rejoin to the message |
| ContactController.SendContactEmail | Backend/src/controller/contact.controller.js:3-48 | an empty field gives 400 and no mail; missing credentials give 500 and no mail; otherwise mail from and to the account with reply-to the submitter; 200 iff delivery succeeds, else 500 |
| ContactController.BlankPasswordNotConfigured | Backend/src/controller/contact.controller.js:15-22 | an all-whitespace password counts as unconfigured |
| Text.StripWhitespace | Backend/src/controller/contact.controller.js:15 | the result has no whitespace, is empty iff the input is blank, and is the input when it had none |
| Text.StripIdempotent | Backend/src/controller/contact.controller.js:15 | stripping twice equals stripping once |
| Text.StripKeepsOthers | Backend/src/controller/contact.controller.js:15 | stripping keeps exactly the non-whitespace characters, in order |
| Text.Trim | Backend/src/models/ParkingLot.model.js:8 | the trimmed name has no whitespace at either end, occurs in the input, and is empty iff the input is blank |
| Text.TrimDropsOnlyWhitespace | Backend/src/models/ParkingLot.model.js:8 | the trimmed name is the slice of the input that starts where the leading whitespace ends, and every character dropped before or after it is whitespace |
| Text.TrimStartDrops | Backend/src/models/ParkingLot.model.js:8 | every character removed from the front is whitespace |
| Text.TrimEndDrops | Backend/src/models/ParkingLot.model.js:8 | every character removed from the back is whitespace |
| Text.JoinSplit | Backend/src/middleware/auth.js:20 | splitting then rejoining gives the text back |
| Text.ParseNatToString | Backend/src/controller/admin.controller.js:58 | a rendered number reads back as itself |
| Text.PadStart2Value | frontend/src/pages/Dashboard.jsx:345-347 | zero-padding to two digits keeps the value |
| JsMath.RoundDiv | Backend/src/controller/admin.controller.js:27 | the result is the nearest integer to the quotient, halves rounded up |
| JsMath.JsRem | frontend/src/pages/Dashboard.jsx:346-347 | the remainder has the dividend's sign and is smaller than the divisor |
| JsMath.CeilDiv | frontend/src/pages/Dashboard.jsx:351 | the result is the least integer not below the quotient |

## Left out

- Haversine distance, distance sorting and the 5 km sidebar filter: floating-point trigonometry.
- The booking, booking-list, complete-session and guard entry/exit handlers: the router imports them, but their definitions are not part of this model. Guard entry is modelled only as the client request it receives.
- Notification and SystemConfig models: schema only; nothing in the modelled code reads or writes them.
- Concurrency: requests are modelled strictly one after another. Under parallel requests the check-then-create race of `startSession` is not represented.
- JWT verification and decoding, `JSON.parse`, date parsing, the mailer, `fetch`/`axios`, the place-search service, the QR camera, geolocation and the map: opaque, passed in as parameters or answers.
- The wall clock: `now` is a parameter. The locale time text of recent activity (`toLocaleTimeString`) is not modelled.
- Mongoose error texts: a failed validation or cast is a 400/500 with a fixed text. An id that is not a valid ObjectId (CastError) is treated as an unknown id.
- Seeding scripts other than the valley seed, and the UI-only pages and contexts (landing, admin mock dashboard, login, forgot password, booking history, guard dashboard, navigation, toasts).
- Text.ToUpper: upper- and lower-casing and the whitespace class are ASCII only; JavaScript's Unicode case mapping and `\s` class are wider.
- ResetPasswordForm.Validate: length counts characters, where JavaScript counts UTF-16 code units; the two differ only for characters outside the Basic Multilingual Plane.
- LotDetail.HandleBook: the slot count is an integer; a non-numeric input (`Number` giving NaN) is not modelled.
- DashboardView.CurrentBill: the bill is computed on exact rationals; the floating-point rounding of `diffInMs / 3600000 * price` before `Math.ceil` is not modelled.
- EntryScanner.ExtractUserId: a parsed `userId` that is a truthy non-string (a number, an object) is not modelled; `userId` is a string or missing.
- AdminController.OccupancyRate: rounds the exact quotient 100·occupied/total half-up. The code rounds the floating-point product `(occupied / total) * 100`, which can fall just below a half: for 29 of 200 the code shows 14 where the model gives 15. AdminController.DashboardStats inherits this.
- AdminController.DashboardStats: its occupancy field is the exact-rounded rate above, not the floating-point one.
- LotDetail.OccupancyPercent: the same exact-versus-floating-point rounding as the admin rate. For 23 of 40 the page shows 57 where the model gives 58.
- AdminController.UpdateParkingLot: the update runs no validators, so the code stores a `type` or `status` outside the enums (say "truck"). The model's patch carries only enum values, so such an update cannot be expressed. The numeric fields are cast, and a non-numeric value fails as a 400 in the code; the model's patch is already typed.
- Prices, amounts and spot counts are integers in the model. The schemas declare them `Number`, so the code also accepts fractions such as 12.5, sums them in floating point and would render "NPR 12.5".
- Failures of the database itself (the 500 replies from the handlers' catch blocks) are not modelled, apart from session validation.

=== FILE: admin.dfy ===
/**
 * The admin controller (Backend/src/controller/admin.controller.js): the
 * dashboard aggregates, the hourly revenue trend, the recent-activity feed
 * and the lot create/update/delete handlers. Database aggregations are
 * folds over the session and lot sequences; the current time is `now` in
 * milliseconds since the epoch.
 */
module AdminController {
  import opened Opt
  import opened Http
  import opened Text
  import opened JsMath
  import L = LotModel
  import S = SessionModel
  import U = UserModel
  import P = ParkingController

  type Id = string

  // ---------------------------------------------------------------------
  // Dashboard statistics
  // ---------------------------------------------------------------------

  function Completed(sessions: seq<S.Session>): (r: seq<S.Session>)
    ensures |r| <= |sessions|
    ensures forall k :: 0 <= k < |r| ==> r[k].status == S.Completed && r[k] in sessions
    ensures (forall k :: 0 <= k < |sessions| ==> sessions[k].status == S.Active) ==> r == []
  {
    if |sessions| == 0 then []
    else if sessions[0].status == S.Completed then [sessions[0]] + Completed(sessions[1..])
    else Completed(sessions[1..])
  }

  function SumAmounts(sessions: seq<S.Session>): int {
    if |sessions| == 0 then 0 else sessions[0].totalAmount + SumAmounts(sessions[1..])
  }

  /**
   * Total revenue: `$match` completed sessions, `$group` summing
   * `totalAmount`, and 0 when the match is empty (the pipeline then yields
   * no group at all).
   */
  function Revenue(sessions: seq<S.Session>): (r: int)
    ensures Completed(sessions) == [] ==> r == 0
  {
    var matched := Completed(sessions);
    if |matched| == 0 then 0 else SumAmounts(matched)
  }

  lemma {:induction false} SumAmountsAppend(a: seq<S.Session>, b: seq<S.Session>)
    ensures SumAmounts(a + b) == SumAmounts(a) + SumAmounts(b)
    decreases |a|
  {
    if |a| > 0 {
      assert (a + b)[1..] == a[1..] + b;
      SumAmountsAppend(a[1..], b);
    } else {
      assert a + b == b;
    }
  }

  lemma {:induction false} CompletedAppend(a: seq<S.Session>, b: seq<S.Session>)
    ensures Completed(a + b) == Completed(a) + Completed(b)
    decreases |a|
  {
    if |a| > 0 {
      assert (a + b)[1..] == a[1..] + b;
      CompletedAppend(a[1..], b);
      if a[0].status == S.Completed {
        assert Completed(a + b) == [a[0]] + Completed(a[1..] + b);
      }
    } else {
      assert a + b == b;
    }
  }

  /** Revenue is additive: each completed session counts once, active ones never. */
  lemma RevenueAppend(a: seq<S.Session>, b: seq<S.Session>)
    ensures Revenue(a + b) == Revenue(a) + Revenue(b)
  {
    CompletedAppend(a, b);
    SumAmountsAppend(Completed(a), Completed(b));
  }

  /** The revenue of a single session is its amount when completed and 0 otherwise. */
  lemma RevenueSingle(s: S.Session)
    ensures Revenue([s]) == if s.status == S.Completed then s.totalAmount else 0
  {
    assert [s][1..] == [];
    assert Completed([s]) == if s.status == S.Completed then [s] else [];
    assert SumAmounts([s]) == s.totalAmount + SumAmounts([]);
  }

  function CountActive(sessions: seq<S.Session>): (n: nat)
    ensures n <= |sessions|
    ensures n == |sessions| - |Completed(sessions)|
    ensures n == 0 <==> forall k :: 0 <= k < |sessions| ==> sessions[k].status != S.Active
  {
    if |sessions| == 0 then 0
    else (if sessions[0].status == S.Active then 1 else 0) + CountActive(sessions[1..])
  }

  /** Every session is either counted as active or kept by the completed filter. */
  lemma {:induction false} ActivePlusCompleted(sessions: seq<S.Session>)
    ensures CountActive(sessions) + |Completed(sessions)| == |sessions|
    decreases |sessions|
  {
    if |sessions| > 0 {
      ActivePlusCompleted(sessions[1..]);
    }
  }

  function SumTotal(lots: seq<L.Lot>): int {
    if |lots| == 0 then 0 else lots[0].totalSpots + SumTotal(lots[1..])
  }

  function SumOccupied(lots: seq<L.Lot>): int {
    if |lots| == 0 then 0 else lots[0].occupiedSpots + SumOccupied(lots[1..])
  }

  /** `Math.round(occupied / total * 100)`, and 0 when there is no capacity. */
  function OccupancyRate(lots: seq<L.Lot>): (r: int)
    ensures SumTotal(lots) <= 0 ==> r == 0
    ensures SumTotal(lots) > 0 ==>
      2 * r * SumTotal(lots) - SumTotal(lots) <= 200 * SumOccupied(lots) < 2 * r * SumTotal(lots) + SumTotal(lots)
  {
    var total := SumTotal(lots);
    if total > 0 then RoundDiv(100 * SumOccupied(lots), total) else 0
  }

  predicate WithinCapacity(lot: L.Lot) {
    0 <= lot.occupiedSpots <= lot.totalSpots
  }

  lemma {:induction false} SumsWithinCapacity(lots: seq<L.Lot>)
    requires forall k :: 0 <= k < |lots| ==> WithinCapacity(lots[k])
    ensures 0 <= SumOccupied(lots) <= SumTotal(lots)
    decreases |lots|
  {
    if |lots| > 0 {
      SumsWithinCapacity(lots[1..]);
    }
  }

  /** When every lot is within capacity the rate is a percentage. */
  lemma OccupancyRateBounded(lots: seq<L.Lot>)
    requires forall k :: 0 <= k < |lots| ==> WithinCapacity(lots[k])
    ensures 0 <= OccupancyRate(lots) <= 100
  {
    SumsWithinCapacity(lots);
    var t := SumTotal(lots);
    var o := SumOccupied(lots);
    var r := OccupancyRate(lots);
    if t > 0 {
      assert (2 * r - 1) * t <= 200 * o <= 200 * t;
      CancelPositive(2 * r - 1, 200, t);
      assert 0 * t <= 200 * o < (2 * r + 1) * t;
      CancelPositiveStrict(0, 2 * r + 1, t);
    }
  }

  lemma CancelPositive(a: int, b: int, t: int)
    requires t > 0 && a * t <= b * t
    ensures a <= b
  {
  }

  lemma CancelPositiveStrict(a: int, b: int, t: int)
    requires t > 0 && a * t < b * t
    ensures a < b
  {
  }

  function CountRole(users: seq<U.User>, roleName: string): (n: nat)
    ensures n <= |users|
    ensures n == 0 <==> forall k :: 0 <= k < |users| ==> U.RoleName(users[k].role) != roleName
  {
    if |users| == 0 then 0
    else (if U.RoleName(users[0].role) == roleName then 1 else 0) + CountRole(users[1..], roleName)
  }

  datatype Stats = Stats(revenue: int, activeSessions: nat, totalLots: nat, totalUsers: nat, occupancyRate: int)

  /** `getDashboardStats`. */
  function DashboardStats(st: P.Store): (r: Stats)
    ensures r.revenue == Revenue(st.sessions)
    ensures r.activeSessions == CountActive(st.sessions)
    ensures r.totalLots == |st.lots|
    ensures r.totalUsers == 0
    ensures r.occupancyRate == OccupancyRate(st.lots)
  {
    Stats(Revenue(st.sessions), CountActive(st.sessions), |st.lots|,
          CountRole(st.users, "buyer"), OccupancyRate(st.lots))
  }

  // ---------------------------------------------------------------------
  // Revenue trend over the last 24 hours
  // ---------------------------------------------------------------------

  const HourMs: int := 3_600_000
  const DayMs: int := 86_400_000

  /** `$hour` of a timestamp: the UTC hour of day. */
  function HourOf(t: int): (h: nat)
    ensures h < 24
  {
    (t / HourMs) % 24
  }

  /** The `$match` stage: completed, with an end time no older than a day. */
  predicate InWindow(s: S.Session, now: int) {
    s.status == S.Completed && s.endTime.Some? && s.endTime.value >= now - DayMs
  }

  predicate InHour(s: S.Session, now: int, h: nat) {
    InWindow(s, now) && HourOf(s.endTime.value) == h
  }

  predicate HasHour(sessions: seq<S.Session>, now: int, h: nat) {
    exists k :: 0 <= k < |sessions| && InHour(sessions[k], now, h)
  }

  /** The `$sum` of one group. */
  function HourAmount(sessions: seq<S.Session>, now: int, h: nat): int {
    if |sessions| == 0 then 0
    else (if InHour(sessions[0], now, h) then sessions[0].totalAmount else 0)
         + HourAmount(sessions[1..], now, h)
  }

  datatype Group = Group(hour: nat, amount: int)

  /** The groups for hours `from` to 23, ascending: one per hour that has a matching session. */
  function GroupsFrom(sessions: seq<S.Session>, now: int, from: nat): (r: seq<Group>)
    requires from <= 24
    ensures forall k :: 0 <= k < |r| ==> from <= r[k].hour < 24
    ensures forall k :: 0 <= k < |r| ==>
      HasHour(sessions, now, r[k].hour) && r[k].amount == HourAmount(sessions, now, r[k].hour)
    ensures forall i, j :: 0 <= i < j < |r| ==> r[i].hour < r[j].hour
    decreases 24 - from
  {
    if from == 24 then []
    else
      var rest := GroupsFrom(sessions, now, from + 1);
      if HasHour(sessions, now, from) then
        var r := [Group(from, HourAmount(sessions, now, from))] + rest;
        assert forall k :: 0 <= k < |rest| ==> r[k + 1] == rest[k];
        r
      else rest
  }

  /** Every hour that has a matching session gets a group. */
  lemma {:induction false} GroupsFromComplete(sessions: seq<S.Session>, now: int, from: nat, h: nat)
    requires from <= h < 24
    requires HasHour(sessions, now, h)
    ensures exists k :: 0 <= k < |GroupsFrom(sessions, now, from)| && GroupsFrom(sessions, now, from)[k].hour == h
    decreases 24 - from
  {
    var r := GroupsFrom(sessions, now, from);
    if h == from {
      assert r[0].hour == h;
    } else {
      GroupsFromComplete(sessions, now, from + 1, h);
      var rest := GroupsFrom(sessions, now, from + 1);
      var k :| 0 <= k < |rest| && rest[k].hour == h;
      if HasHour(sessions, now, from) {
        assert r[k + 1].hour == h;
      } else {
        assert r[k].hour == h;
      }
    }
  }

  datatype Trend = Trend(time: string, amount: int)

  /** A zero-padded "HH:00" label. */
  function HourLabel(h: nat): (s: string)
    ensures |s| >= 5
    ensures h < 100 ==> |s| == 5
    ensures s[|s| - 3..] == ":00"
  {
    PadStart2(NatToString(h)) + ":00"
  }

  /** The label of an hour can be read back to that hour. */
  lemma HourLabelDecodes(h: nat)
    requires h < 24
    ensures AllDigits(HourLabel(h)[..2]) && ParseDigits(HourLabel(h)[..2]) == h
  {
    PadStart2Value(h);
    assert HourLabel(h)[..2] == PadStart2(NatToString(h));
  }

  /** `getRevenueTrends`. */
  function RevenueTrends(sessions: seq<S.Session>, now: int): (r: seq<Trend>)
    ensures |r| == |GroupsFrom(sessions, now, 0)|
    ensures forall k :: 0 <= k < |r| ==>
      var g := GroupsFrom(sessions, now, 0)[k];
      r[k] == Trend(HourLabel(g.hour), g.amount)
  {
    var groups := GroupsFrom(sessions, now, 0);
    seq(|groups|, k requires 0 <= k < |groups| => Trend(HourLabel(groups[k].hour), groups[k].amount))
  }

  /**
   * The trend has one entry per hour of day that some completed session of
   * the last 24 hours ended in, ascending by hour, each labelled with its
   * hour and carrying the sum of those sessions' amounts.
   */
  lemma RevenueTrendsSpec(sessions: seq<S.Session>, now: int, h: nat)
    requires h < 24
    ensures HasHour(sessions, now, h) <==>
      exists k :: 0 <= k < |RevenueTrends(sessions, now)| &&
                  RevenueTrends(sessions, now)[k] == Trend(HourLabel(h), HourAmount(sessions, now, h))
  {
    var r := RevenueTrends(sessions, now);
    var g := GroupsFrom(sessions, now, 0);
    if HasHour(sessions, now, h) {
      GroupsFromComplete(sessions, now, 0, h);
      var k :| 0 <= k < |g| && g[k].hour == h;
      assert r[k] == Trend(HourLabel(h), HourAmount(sessions, now, h));
    }
    if exists k :: 0 <= k < |r| && r[k] == Trend(HourLabel(h), HourAmount(sessions, now, h)) {
      var k :| 0 <= k < |r| && r[k] == Trend(HourLabel(h), HourAmount(sessions, now, h));
      assert HourLabel(h) == HourLabel(g[k].hour);
      HourLabelDecodes(h);
      HourLabelDecodes(g[k].hour);
      assert h == g[k].hour;
    }
  }

  // ---------------------------------------------------------------------
  // Recent activity
  // ---------------------------------------------------------------------

  /**
   * One feed entry. `plate` reads `name` from the populated user, a field
   * the user schema does not have: it is absent (`None`) whenever the user
   * exists and "Unknown" when the reference is dangling. The localised
   * start time is not modelled.
   */
  datatype Activity = Activity(id: Id, plate: Option<string>, kind: string, amount: string,
                               status: string, parkingLot: string)

  /** "NPR n" for a positive amount, "NPR 0" otherwise. */
  function AmountLabel(amount: int): (s: string)
    ensures StartsWith(s, "NPR ")
    ensures AllDigits(s[4..])
    ensures ParseDigits(s[4..]) == Max(amount, 0)
  {
    ParseNatToString(Max(amount, 0));
    if amount > 0 then "NPR " + NatToString(amount) else "NPR 0"
  }

  function FindUser(users: seq<U.User>, id: Id): Option<U.User> {
    U.FindUserById(users, id)
  }

  /** The upper-cased enum names shown in the feed. */
  lemma UpperCasedNames()
    ensures ToUpper("car") == "CAR" && ToUpper("bike") == "BIKE"
    ensures ToUpper("active") == "ACTIVE" && ToUpper("completed") == "COMPLETED"
  {
    assert ToUpper("car") == "CAR" by {
      var u := ToUpper("car");
      assert u[0] == 'C' && u[1] == 'A' && u[2] == 'R';
    }
    assert ToUpper("bike") == "BIKE" by {
      var u := ToUpper("bike");
      assert u[0] == 'B' && u[1] == 'I' && u[2] == 'K' && u[3] == 'E';
    }
    assert ToUpper("active") == "ACTIVE" by {
      var u := ToUpper("active");
      assert u[0] == 'A' && u[1] == 'C' && u[2] == 'T' && u[3] == 'I' && u[4] == 'V' && u[5] == 'E';
    }
    assert ToUpper("completed") == "COMPLETED" by {
      var u := ToUpper("completed");
      assert u[0] == 'C' && u[1] == 'O' && u[2] == 'M' && u[3] == 'P' && u[4] == 'L';
      assert u[5] == 'E' && u[6] == 'T' && u[7] == 'E' && u[8] == 'D';
    }
  }

  function FormatActivity(s: S.Session, users: seq<U.User>, lots: seq<L.Lot>): (a: Activity)
    ensures a.id == s.id
    ensures a.kind == (if s.vehicleType == S.Car then "CAR" else "BIKE")
    ensures a.status == (if s.status == S.Active then "ACTIVE" else "COMPLETED")
    ensures a.amount == AmountLabel(s.totalAmount)
    ensures a.plate == (if U.IdTaken(users, s.user) then None else Some("Unknown"))
    ensures P.LotIdTaken(lots, s.parkingLot) ==> a.parkingLot == P.FindLot(lots, s.parkingLot).value.name
    ensures !P.LotIdTaken(lots, s.parkingLot) ==> a.parkingLot == "Unknown"
  {
    var lot := P.FindLot(lots, s.parkingLot);
    UpperCasedNames();
    Activity(
      s.id,
      if FindUser(users, s.user).Some? then None else Some("Unknown"),
      ToUpper(S.VehicleTypeName(s.vehicleType)),
      AmountLabel(s.totalAmount),
      ToUpper(S.SessionStatusName(s.status)),
      if lot.Some? then lot.value.name else "Unknown")
  }

  const ActivityLimit: nat := 10

  /** The sessions sorted by creation time, newest first, at most ten of them. */
  function Newest(sessions: seq<S.Session>): (r: seq<S.Session>)
    ensures |r| == Min(|sessions|, ActivityLimit)
    ensures forall i :: 0 <= i < |r| ==> r[i] == sessions[|sessions| - 1 - i]
  {
    var n := Min(|sessions|, ActivityLimit);
    seq(n, i requires 0 <= i < n => sessions[|sessions| - 1 - i])
  }

  /** `getRecentActivity`. */
  function RecentActivity(st: P.Store): (r: seq<Activity>)
    ensures |r| <= ActivityLimit
    ensures |r| == Min(|st.sessions|, ActivityLimit)
    ensures forall i :: 0 <= i < |r| ==>
      r[i] == FormatActivity(st.sessions[|st.sessions| - 1 - i], st.users, st.lots)
  {
    var newest := Newest(st.sessions);
    seq(|newest|, i requires 0 <= i < |newest| => FormatActivity(newest[i], st.users, st.lots))
  }

  // ---------------------------------------------------------------------
  // Lot administration
  // ---------------------------------------------------------------------

  /** `getAllLots`: every lot, newest first. */
  function GetAllLots(st: P.Store): (r: seq<L.Lot>)
    ensures |r| == |st.lots|
    ensures forall i :: 0 <= i < |r| ==> r[i] == st.lots[|st.lots| - 1 - i]
  {
    seq(|st.lots|, i requires 0 <= i < |st.lots| => st.lots[|st.lots| - 1 - i])
  }

  /** `addParkingLot`: schema errors give 400; a valid lot is saved through the pre-save hook. */
  function AddParkingLot(st: P.Store, newId: Id, input: L.LotInput): (r: (P.Store, Reply<L.Lot>))
    requires !P.LotIdTaken(st.lots, newId)
    ensures L.CreateLot(newId, input).Err? ==> r.0 == st && r.1.code == 400 && !r.1.success
    ensures L.CreateLot(newId, input).Ok? ==>
      && r.1.code == 201 && r.1.data == Some(L.CreateLot(newId, input).value)
      && r.0 == st.(lots := st.lots + [L.CreateLot(newId, input).value])
      && L.StatusConsistent(r.1.data.value)
    ensures P.LotIdsUnique(st.lots) ==> P.LotIdsUnique(r.0.lots)
  {
    match L.CreateLot(newId, input)
    case Err(_) => (st, Fail(400, "ParkingLot validation failed"))
    case Ok(lot) => (st.(lots := st.lots + [lot]), Reply(201, true, "", Some(lot)))
  }

  function RemoveLot(lots: seq<L.Lot>, id: Id): (r: seq<L.Lot>)
    ensures forall k :: 0 <= k < |r| ==> r[k] in lots && r[k].id != id
    ensures forall k :: 0 <= k < |lots| && lots[k].id != id ==> lots[k] in r
    ensures !P.LotIdTaken(lots, id) ==> r == lots
  {
    if |lots| == 0 then []
    else if lots[0].id == id then RemoveLot(lots[1..], id)
    else [lots[0]] + RemoveLot(lots[1..], id)
  }

  /**
   * `deleteParkingLot`: 404 and no change for an unknown id; otherwise the
   * lot is removed. Sessions that reference it are left in place.
   */
  function DeleteParkingLot(st: P.Store, id: Id): (r: (P.Store, Reply<()>))
    ensures !P.LotIdTaken(st.lots, id) ==> r.0 == st && r.1 == Fail(404, "Parking lot not found")
    ensures P.LotIdTaken(st.lots, id) ==>
      && r.1.code == 200 && r.1.message == "Parking lot deleted successfully"
      && r.0.lots == RemoveLot(st.lots, id)
      && !P.LotIdTaken(r.0.lots, id)
      && r.0.sessions == st.sessions && r.0.users == st.users
  {
    if P.FindLot(st.lots, id).None? then (st, Fail(404, "Parking lot not found"))
    else (st.(lots := RemoveLot(st.lots, id)), Reply(200, true, "Parking lot deleted successfully", None))
  }

  /** The body of an update request: only the supplied fields are written. */
  datatype LotPatch = LotPatch(
    name: Option<string>,
    lat: Option<real>,
    lon: Option<real>,
    pricePerHour: Option<int>,
    totalSpots: Option<int>,
    occupiedSpots: Option<int>,
    kind: Option<L.LotType>,
    status: Option<L.LotStatus>)

  /**
   * `$set` of the supplied fields. The schema's `trim` setter still applies
   * to a supplied name; the pre-save hook and the validators do not run.
   */
  function ApplyPatch(lot: L.Lot, p: LotPatch): (r: L.Lot)
    ensures r.id == lot.id
    ensures p.name.Some? ==> r.name == Trim(p.name.value)
    ensures p.name.None? ==> r.name == lot.name
    ensures r.lat == p.lat.GetOr(lot.lat) && r.lon == p.lon.GetOr(lot.lon)
    ensures r.pricePerHour == p.pricePerHour.GetOr(lot.pricePerHour)
    ensures r.kind == p.kind.GetOr(lot.kind)
    ensures r.totalSpots == p.totalSpots.GetOr(lot.totalSpots)
    ensures r.occupiedSpots == p.occupiedSpots.GetOr(lot.occupiedSpots)
    ensures r.status == p.status.GetOr(lot.status)
    ensures p == LotPatch(None, None, None, None, None, None, None, None) ==> r == lot
  {
    lot.(name := if p.name.Some? then Trim(p.name.value) else lot.name, lat := p.lat.GetOr(lot.lat), lon := p.lon.GetOr(lot.lon),
         pricePerHour := p.pricePerHour.GetOr(lot.pricePerHour),
         totalSpots := p.totalSpots.GetOr(lot.totalSpots),
         occupiedSpots := p.occupiedSpots.GetOr(lot.occupiedSpots),
         kind := p.kind.GetOr(lot.kind), status := p.status.GetOr(lot.status))
  }

  function PatchLot(lots: seq<L.Lot>, id: Id, p: LotPatch): (r: seq<L.Lot>)
    ensures |r| == |lots|
    ensures forall k :: 0 <= k < |lots| ==> r[k] == (if lots[k].id == id then ApplyPatch(lots[k], p) else lots[k])
  {
    seq(|lots|, k requires 0 <= k < |lots| => if lots[k].id == id then ApplyPatch(lots[k], p) else lots[k])
  }

  /** `updateParkingLot`: 404 and no change for an unknown id; otherwise the patched lot. */
  function UpdateParkingLot(st: P.Store, id: Id, p: LotPatch): (r: (P.Store, Reply<L.Lot>))
    ensures !P.LotIdTaken(st.lots, id) ==> r.0 == st && r.1 == Fail(404, "Parking lot not found")
    ensures P.LotIdTaken(st.lots, id) ==>
      && r.1.code == 200 && r.1.data == Some(ApplyPatch(P.FindLot(st.lots, id).value, p))
      && r.0 == st.(lots := PatchLot(st.lots, id, p))
  {
    var found := P.FindLot(st.lots, id);
    if found.None? then (st, Fail(404, "Parking lot not found"))
    else (st.(lots := PatchLot(st.lots, id, p)), Succeed(200, ApplyPatch(found.value, p)))
  }
}

=== FILE: auth.dfy ===
/**
 * The shape of every JSON reply: an HTTP status code, a success flag, a
 * message and optional data. `success` is the body's own `success` field
 * where the handler sends one; the admin lot handlers send none, and for
 * them it only marks a 2xx status.
 */
module Http {
  import opened Opt

  datatype Reply<T> = Reply(code: int, success: bool, message: string, data: Option<T>)

  function Fail<T>(code: int, message: string): Reply<T> {
    Reply(code, false, message, None)
  }

  function Succeed<T>(code: int, data: T): Reply<T> {
    Reply(code, true, "", Some(data))
  }
}

/**
 * Request authentication and role gates (Backend/src/middleware/auth.js).
 *
 * The bearer token is taken from the `Authorization` header as in section
 * 2.1 of RFC 6750, except that the "Bearer " prefix is matched
 * case-sensitively. Verifying the JSON Web Token (RFC 7519) is a foreign
 * call: it is the parameter `verify`, which either yields the decoded claims
 * or throws an error identified by its `name`.
 */
module Auth {
  import opened Opt
  import opened Text
  import opened UserModel

  /** The claims of a verified token that the middleware reads: `_id` and `id`. */
  datatype Claims = Claims(mongoId: Option<string>, plainId: Option<string>)

  /** The outcome of `jwt.verify`: decoded claims, or an error with its `name`. */
  datatype Verified = Decoded(claims: Claims) | Thrown(errorName: string)

  /** Middleware outcome: `next()` with the request's user attached, or a reply. */
  datatype Outcome = Next(user: User) | Deny(code: int, message: string)

  /** Outcome of a role gate: `next()` or a 403 reply. */
  datatype Gate = Pass | Forbid(code: int, message: string)

  const BearerPrefix: string := "Bearer "

  /**
   * The token of an `Authorization` header: the second space-separated field,
   * present only when the header starts with "Bearer ".
   */
  function BearerToken(header: Option<string>): (r: Option<string>)
    ensures r.None? <==> header.None? || !StartsWith(header.value, BearerPrefix)
    ensures r.Some? ==> |Split(header.value, ' ')| >= 2 && r.value == Split(header.value, ' ')[1]
  {
    if header.None? || !StartsWith(header.value, BearerPrefix) then None
    else
      var h := header.value;
      assert h == "Bearer" + [' '] + h[7..];
      SplitHead("Bearer", ' ', h[7..]);
      Some(Split(h, ' ')[1])
  }

  /** The token is the text after "Bearer " up to the next space (or the end). */
  lemma BearerTokenIsFirstWord(h: string)
    requires StartsWith(h, BearerPrefix)
    ensures BearerToken(Some(h)) == Some(TakeUntil(h[7..], ' '))
  {
    assert h == "Bearer" + [' '] + h[7..];
    SplitHead("Bearer", ' ', h[7..]);
    SplitFirstField(h[7..], ' ');
  }

  /** `decoded._id || decoded.id`: an empty `_id` is falsy and falls back to `id`. */
  function ClaimedUserId(c: Claims): (r: Option<string>)
    ensures c.mongoId.Some? && c.mongoId.value != "" ==> r == c.mongoId
    ensures (c.mongoId.None? || c.mongoId.value == "") ==> r == c.plainId
  {
    if c.mongoId.Some? && c.mongoId.value != "" then c.mongoId else c.plainId
  }

  /** The reply for an error thrown while verifying the token or loading the user. */
  function VerifyErrorReply(errorName: string): (r: Outcome)
    ensures r.Deny? && r.code == 401
    ensures errorName == "JsonWebTokenError" <==> r.message == "Invalid token"
    ensures errorName == "TokenExpiredError" <==> r.message == "Token expired"
    ensures errorName !in {"JsonWebTokenError", "TokenExpiredError"} <==> r.message == "Authentication failed"
  {
    if errorName == "JsonWebTokenError" then Deny(401, "Invalid token")
    else if errorName == "TokenExpiredError" then Deny(401, "Token expired")
    else Deny(401, "Authentication failed")
  }

  /** `isauthenticated`: header check, token verification, user lookup. */
  function Authenticate(header: Option<string>, verify: string -> Verified, users: seq<User>): (r: Outcome)
    ensures BearerToken(header).None? ==> r == Deny(401, "No token provided")
    ensures r.Next? ==>
      && BearerToken(header).Some?
      && verify(BearerToken(header).value).Decoded?
      && ClaimedUserId(verify(BearerToken(header).value).claims) == Some(r.user.id)
      && r.user in users
    ensures BearerToken(header).Some? && verify(BearerToken(header).value).Thrown? ==>
      r == VerifyErrorReply(verify(BearerToken(header).value).errorName)
    ensures BearerToken(header).Some? && verify(BearerToken(header).value).Decoded? ==>
      var uid := ClaimedUserId(verify(BearerToken(header).value).claims);
      uid.Some? && IdTaken(users, uid.value) ==> r == Next(FindUserById(users, uid.value).value)
    ensures r.Deny? ==> r.code == 401 || r.code == 404
    ensures r.Deny? && r.code == 404 <==>
      && BearerToken(header).Some?
      && verify(BearerToken(header).value).Decoded?
      && var uid := ClaimedUserId(verify(BearerToken(header).value).claims);
         uid.None? || !IdTaken(users, uid.value)
  {
    var token := BearerToken(header);
    if token.None? then Deny(401, "No token provided")
    else
      match verify(token.value)
      case Thrown(name) => VerifyErrorReply(name)
      case Decoded(claims) =>
        var uid := ClaimedUserId(claims);
        var found := if uid.None? then None else FindUserById(users, uid.value);
        if found.None? then Deny(404, "User not found") else Next(found.value)
  }

  /** `Isadmin`: only a superadmin passes. */
  function IsAdmin(u: User): (r: Gate)
    ensures r.Pass? <==> u.role == Superadmin
    ensures r.Forbid? ==> r.code == 403
  {
    if u.role == Superadmin then Pass else Forbid(403, "Forbidden: Admin access required")
  }

  /** `IsGuard`: only a guard passes. */
  function IsGuard(u: User): (r: Gate)
    ensures r.Pass? <==> u.role == Guard
    ensures r.Forbid? ==> r.code == 403
  {
    if u.role == Guard then Pass else Forbid(403, "Forbidden: Guard access required")
  }

  /** `IsGuardOrAdmin`: passes exactly the users one of the two gates above passes. */
  function IsGuardOrAdmin(u: User): (r: Gate)
    ensures r.Pass? <==> IsGuard(u).Pass? || IsAdmin(u).Pass?
    ensures r.Pass? <==> u.role != Driver
    ensures r.Forbid? ==> r.code == 403
  {
    if u.role == Guard || u.role == Superadmin then Pass
    else Forbid(403, "Forbidden: Guard or Admin access required")
  }
}

=== FILE: auth_context.dfy ===
/**
 * The client's session state (frontend/src/context/AuthContext.jsx): the
 * stored token's expiry rule on start-up, the role redirect after login and
 * logout. Decoding the token (`jwtDecode`) and the clock are parameters.
 */
module AuthContext {
  import opened Opt

  /** The decoded payload fields the context reads; `exp` is in seconds. */
  datatype Payload = Payload(role: Option<string>, exp: Option<int>)

  /** `jwtDecode(token)`: the payload, or a thrown error. */
  datatype Decoded = Decodes(payload: Payload) | Undecodable

  /** The context's state: stored token, current user, loading flag, current path. */
  datatype State = State(stored: Option<string>, user: Option<Payload>, loading: bool, path: string)

  /**
   * `decodedToken.exp * 1000 < Date.now()`. A missing `exp` makes the left
   * side NaN, and comparisons with NaN are false: such a token never expires.
   */
  predicate Expired(p: Payload, now: int) {
    p.exp.Some? && p.exp.value * 1000 < now
  }

  /** `if (token)`: a missing or empty stored token is falsy and is never decoded. */
  predicate HasToken(s: State) {
    s.stored.Some? && s.stored.value != ""
  }

  /** The start-up check of a stored token. */
  function Restore(s: State, decode: string -> Decoded, now: int): (r: State)
    ensures !r.loading
    ensures r.path == s.path
    ensures !HasToken(s) ==> r == s.(loading := false)
    ensures HasToken(s) && decode(s.stored.value).Undecodable? ==> r.stored.None? && r.user.None?
    ensures HasToken(s) && decode(s.stored.value).Decodes? ==>
      var p := decode(s.stored.value).payload;
      (r.stored.None? <==> Expired(p, now)) &&
      (Expired(p, now) ==> r.user.None?) &&
      (!Expired(p, now) ==> r.stored == s.stored && r.user == Some(p))
  {
    if !HasToken(s) then s.(loading := false)
    else
      match decode(s.stored.value)
      case Undecodable => s.(stored := None, user := None, loading := false)
      case Decodes(p) =>
        if Expired(p, now) then s.(stored := None, user := None, loading := false)
        else s.(user := Some(p), loading := false)
  }

  /** A token is kept at the very millisecond its expiry is reached. */
  lemma KeptAtExpiryInstant(s: State, decode: string -> Decoded, e: int)
    requires HasToken(s) && decode(s.stored.value) == Decodes(Payload(None, Some(e)))
    ensures Restore(s, decode, e * 1000).stored == s.stored
    ensures Restore(s, decode, e * 1000 + 1).stored.None?
  {
  }

  /** An empty stored token is left in storage untouched: it is never decoded nor removed. */
  lemma EmptyTokenKept(s: State, decode: string -> Decoded, now: int)
    requires s.stored == Some("")
    ensures Restore(s, decode, now) == s.(loading := false)
  {
  }

  /** Checking twice decides as checking once. */
  lemma RestoreIdempotent(s: State, decode: string -> Decoded, now: int)
    ensures Restore(Restore(s, decode, now), decode, now) == Restore(s, decode, now)
  {
  }

  /** `login`'s redirect: superadmins to `/admin`, everyone else to `/dashboard`. */
  function LandingPath(role: Option<string>): (r: string)
    ensures r == "/admin" <==> role == Some("superadmin")
    ensures r == "/admin" || r == "/dashboard"
  {
    if role == Some("superadmin") then "/admin" else "/dashboard"
  }

  /**
   * `login(token)`: the token is stored first; a token that cannot be
   * decoded then throws, leaving the user and the path as they were.
   */
  function Login(s: State, token: string, decode: string -> Decoded): (r: State)
    ensures r.stored == Some(token)
    ensures r.loading == s.loading
    ensures decode(token).Decodes? ==>
      r.user == Some(decode(token).payload) && r.path == LandingPath(decode(token).payload.role)
    ensures decode(token).Undecodable? ==> r.user == s.user && r.path == s.path
  {
    var stored := s.(stored := Some(token));
    match decode(token)
    case Undecodable => stored
    case Decodes(p) => stored.(user := Some(p), path := LandingPath(p.role))
  }

  /** A reload after logging in with an unexpired token restores the same user. */
  lemma RestoreAfterLogin(s: State, token: string, decode: string -> Decoded, now: int)
    requires decode(token).Decodes? && !Expired(decode(token).payload, now)
    ensures var after := Restore(Login(s, token, decode), decode, now);
      after.stored == Some(token) && after.user == Some(decode(token).payload) && !after.loading
  {
  }

  /** `logout`: no token, no user, back to `/`. */
  function Logout(s: State): (r: State)
    ensures r.stored.None? && r.user.None? && r.path == "/"
    ensures r.loading == s.loading
  {
    s.(stored := None, user := None, path := "/")
  }

  /** Logging in then out leaves nothing of the session behind. */
  lemma LogoutUndoesLogin(s: State, token: string, decode: string -> Decoded)
    ensures Logout(Login(s, token, decode)) == Logout(s)
  {
  }
}

=== FILE: contact.dfy ===
/**
 * The contact endpoint (Backend/src/controller/contact.controller.js):
 * field validation, the mail account's credentials, and the message it
 * composes. The mail transport is the parameter `send`, which reports
 * whether delivery succeeded; the environment is a parameter too.
 */
module ContactController {
  import opened Opt
  import opened Text
  import opened Http

  /** The request body; a missing field is `None`. */
  datatype ContactForm = ContactForm(name: Option<string>, email: Option<string>,
                                     subject: Option<string>, message: Option<string>)

  /** `EMAIL_USERNAME` and `EMAIL_PASSWORD` from the environment. */
  datatype Env = Env(username: Option<string>, password: Option<string>)

  datatype Mail = Mail(from: string, to: string, replyTo: string, subject: string, text: string)

  predicate Filled(s: Option<string>) {
    s.Some? && s.value != ""
  }

  predicate Complete(f: ContactForm) {
    Filled(f.name) && Filled(f.email) && Filled(f.subject) && Filled(f.message)
  }

  /** `(EMAIL_PASSWORD || "").replace(/\s+/g, "")`. */
  function AppPassword(env: Env): (r: string)
    ensures NoWhitespace(r)
    ensures r == "" <==> IsBlank(env.password.GetOr(""))
    ensures NoWhitespace(env.password.GetOr("")) ==> r == env.password.GetOr("")
  {
    StripWhitespace(env.password.GetOr(""))
  }

  /** The composed message's subject line. */
  function MailSubject(subject: string): (r: string)
    ensures StartsWith(r, "Contact: ") && r[9..] == subject
  {
    "Contact: " + subject
  }

  /** The composed message's body: name, email, a blank line, then the message. */
  function MailBody(name: string, email: string, message: string): string {
    "Name: " + name + "\nEmail: " + email + "\n\nMessage:\n" + message
  }

  /**
   * The body reads back: with no line break in the name or email, its lines
   * are the name line, the email line, a blank line, the "Message:" line,
   * and then the message's own lines.
   */
  lemma MailBodyLines(name: string, email: string, message: string)
    requires '\n' !in name && '\n' !in email
    ensures Split(MailBody(name, email, message), '\n') ==
      ["Name: " + name, "Email: " + email, "", "Message:"] + Split(message, '\n')
    ensures Join(Split(message, '\n'), '\n') == message
  {
    var l1, l2 := "Name: " + name, "Email: " + email;
    var rest3 := "Message:" + ['\n'] + message;
    var rest2 := "" + ['\n'] + rest3;
    var rest1 := l2 + ['\n'] + rest2;
    MailBodyShape(name, email, message);
    SplitHead("Message:", '\n', message);
    SplitHead("", '\n', rest3);
    SplitHead(l2, '\n', rest2);
    SplitHead(l1, '\n', rest1);
    JoinSplit(message, '\n');
  }

  lemma MailBodyShape(name: string, email: string, message: string)
    ensures MailBody(name, email, message) ==
      ("Name: " + name) + ['\n'] + (("Email: " + email) + ['\n'] + ("" + ['\n'] + ("Message:" + ['\n'] + message)))
  {
  }

  const FillAll := "Please fill in all fields."
  const NotConfigured := "Email service not configured in .env"
  const SendFailed := "Failed to send message."
  const Sent := "Message sent successfully!"

  /**
   * `sendContactEmail`: the reply and the mail handed to the transport, if
   * any.
   */
  function SendContactEmail(f: ContactForm, env: Env, send: Mail -> bool): (r: (Reply<()>, Option<Mail>))
    ensures !Complete(f) ==> r == (Reply(400, false, FillAll, None), None)
    ensures Complete(f) && (!Filled(env.username) || AppPassword(env) == "") ==>
      r == (Reply(500, false, NotConfigured, None), None)
    ensures r.1.Some? <==> Complete(f) && Filled(env.username) && AppPassword(env) != ""
    ensures r.1.Some? ==>
      var m := r.1.value;
      && m.from == env.username.value && m.to == env.username.value
      && m.replyTo == f.email.value
      && m.subject == MailSubject(f.subject.value)
      && m.text == MailBody(f.name.value, f.email.value, f.message.value)
    ensures r.1.Some? ==>
      (r.0 == Reply(200, true, Sent, None) <==> send(r.1.value)) &&
      (r.0 == Reply(500, false, SendFailed, None) <==> !send(r.1.value))
    ensures r.0.success <==> r.1.Some? && send(r.1.value)
  {
    if !Complete(f) then (Reply(400, false, FillAll, None), None)
    else if !Filled(env.username) || AppPassword(env) == "" then (Reply(500, false, NotConfigured, None), None)
    else
      var user := env.username.value;
      var m := Mail(user, user, f.email.value, MailSubject(f.subject.value),
                    MailBody(f.name.value, f.email.value, f.message.value));
      if send(m) then (Reply(200, true, Sent, None), Some(m))
      else (Reply(500, false, SendFailed, None), Some(m))
  }

  /** A password made only of whitespace counts as no password. */
  lemma BlankPasswordNotConfigured(f: ContactForm, env: Env, send: Mail -> bool)
    requires Complete(f) && env.password.Some? && IsBlank(env.password.value)
    ensures SendContactEmail(f, env, send).0.code == 500
    ensures SendContactEmail(f, env, send).1.None?
  {
  }
}

=== FILE: dashboard.dfy ===
/**
 * The driver dashboard (frontend/src/pages/Dashboard.jsx): the search box's
 * suggestion list, and the live timer and running bill of the active
 * session. The place search service's answer and the wall clock are
 * parameters.
 */
module DashboardView {
  import opened Opt
  import opened Text
  import opened JsMath

  // ---------------------------------------------------------------------
  // Search suggestions
  // ---------------------------------------------------------------------

  /** A lot as the dashboard fetched it; `name` may be missing. */
  datatype LotEntry = LotEntry(id: string, name: Option<string>, lat: real, lon: real)

  /** A place from the search service: `display_name`, `lat`, `lon`. */
  datatype Place = Place(displayName: string, lat: real, lon: real)

  datatype Source = FromLot(id: string) | FromPlace

  datatype Suggestion = Suggestion(source: Source, title: string, lat: real, lon: real)

  const LocalLimit := 5
  const SuggestionLimit := 6

  /** `l.name && l.name.toLowerCase().includes(lower)`: an empty name is falsy. */
  predicate NameMatches(l: LotEntry, lower: string) {
    l.name.Some? && l.name.value != "" && Contains(ToLower(l.name.value), lower)
  }

  /** `lots.filter(NameMatches)`, in order. */
  function MatchingLots(lots: seq<LotEntry>, lower: string): (r: seq<LotEntry>)
    ensures |r| <= |lots|
    ensures forall k :: 0 <= k < |r| ==> r[k] in lots && NameMatches(r[k], lower)
    ensures forall l :: l in lots && NameMatches(l, lower) ==> l in r
  {
    if lots == [] then []
    else
      var rest := MatchingLots(lots[1..], lower);
      if NameMatches(lots[0], lower) then [lots[0]] + rest else rest
  }

  /** `slice(0, n)`. */
  function Take<T>(s: seq<T>, n: nat): (r: seq<T>)
    ensures |r| == Min(n, |s|)
    ensures r == s[..|r|]
    ensures |s| <= n ==> r == s
  {
    if |s| <= n then s else s[..n]
  }

  function LotSuggestion(l: LotEntry): Suggestion
    requires l.name.Some?
  {
    Suggestion(FromLot(l.id), l.name.value, l.lat, l.lon)
  }

  /** The first five matching lots, labelled with their names. */
  function LocalMatches(lots: seq<LotEntry>, lower: string): (r: seq<Suggestion>)
    ensures |r| == Min(LocalLimit, |MatchingLots(lots, lower)|)
    ensures forall k :: 0 <= k < |r| ==> r[k] == LotSuggestion(MatchingLots(lots, lower)[k])
    ensures forall k :: 0 <= k < |r| ==>
      r[k].source.FromLot? && Contains(ToLower(r[k].title), lower)
  {
    var m := Take(MatchingLots(lots, lower), LocalLimit);
    seq(|m|, k requires 0 <= k < |m| => LotSuggestion(m[k]))
  }

  function PlaceSuggestion(p: Place): Suggestion {
    Suggestion(FromPlace, p.displayName, p.lat, p.lon)
  }

  /** `(places || []).map(...)`: a `null` answer counts as no places. */
  function PlaceSuggestions(places: Option<seq<Place>>): (r: seq<Suggestion>)
    ensures places.None? ==> r == []
    ensures |r| == |places.GetOr([])|
    ensures forall k :: 0 <= k < |r| ==>
      r[k] == PlaceSuggestion(places.GetOr([])[k]) && r[k].source.FromPlace?
  {
    var ps := places.GetOr([]);
    seq(|ps|, k requires 0 <= k < |ps| => PlaceSuggestion(ps[k]))
  }

  function LabelsOf(s: seq<Suggestion>): set<string> {
    set x | x in s :: x.title
  }

  predicate DistinctLabels(s: seq<Suggestion>) {
    forall i, j :: 0 <= i < j < |s| ==> s[i].title != s[j].title
  }

  /**
   * The `seen`-set filter: keep an item when no earlier item (nor anything in
   * `seen`) had its label.
   */
  function DedupeFrom(items: seq<Suggestion>, seen: set<string>): (r: seq<Suggestion>)
    ensures |r| <= |items|
    ensures forall k :: 0 <= k < |r| ==> r[k] in items && r[k].title !in seen
    ensures DistinctLabels(r)
    ensures LabelsOf(r) == LabelsOf(items) - seen
    decreases |items|
  {
    if items == [] then []
    else
      var x := items[0];
      if x.title in seen then
        var r := DedupeFrom(items[1..], seen);
        assert LabelsOf(items) == {x.title} + LabelsOf(items[1..]);
        r
      else
        var rest := DedupeFrom(items[1..], seen + {x.title});
        var r := [x] + rest;
        assert LabelsOf(items) == {x.title} + LabelsOf(items[1..]);
        assert forall y :: y in r <==> y == x || y in rest;
        assert LabelsOf(r) == {x.title} + LabelsOf(rest);
        r
  }

  function Dedupe(items: seq<Suggestion>): seq<Suggestion> {
    DedupeFrom(items, {})
  }

  lemma ConcatAssoc<T>(a: seq<T>, b: seq<T>, c: seq<T>)
    ensures a + (b + c) == (a + b) + c
  {
  }

  /** One step of the filter: the head is kept iff its label is unseen. */
  lemma DedupeCons(x: Suggestion, rest: seq<Suggestion>, seen: set<string>)
    ensures DedupeFrom([x] + rest, seen) ==
      if x.title in seen then DedupeFrom(rest, seen) else [x] + DedupeFrom(rest, seen + {x.title})
  {
    assert ([x] + rest)[0] == x && ([x] + rest)[1..] == rest;
  }

  /** Deduplicating a concatenation: the second part only adds labels the first lacked. */
  lemma {:induction false} DedupeAppend(a: seq<Suggestion>, b: seq<Suggestion>, seen: set<string>)
    ensures DedupeFrom(a + b, seen) == DedupeFrom(a, seen) + DedupeFrom(b, seen + LabelsOf(a))
    decreases |a|
  {
    if a == [] {
      assert a + b == b;
      assert seen + LabelsOf(a) == seen;
    } else {
      var x, t := a[0], a[1..];
      assert a == [x] + t && a + b == [x] + (t + b);
      DedupeCons(x, t + b, seen);
      DedupeCons(x, t, seen);
      assert LabelsOf(a) == {x.title} + LabelsOf(t);
      if x.title in seen {
        DedupeAppend(t, b, seen);
        var later := seen + LabelsOf(t);
        assert later == seen + LabelsOf(a);
        assert DedupeFrom(a + b, seen) == DedupeFrom(t, seen) + DedupeFrom(b, later);
      } else {
        var s1 := seen + {x.title};
        DedupeAppend(t, b, s1);
        var later := s1 + LabelsOf(t);
        assert later == seen + LabelsOf(a);
        var p, q := DedupeFrom(t, s1), DedupeFrom(b, later);
        assert DedupeFrom(a + b, seen) == [x] + (p + q);
        ConcatAssoc([x], p, q);
      }
    }
  }

  /** The first item carrying a label survives deduplication. */
  lemma DedupeKeepsFirst(items: seq<Suggestion>, i: nat)
    requires i < |items|
    requires forall j :: 0 <= j < i ==> items[j].title != items[i].title
    ensures items[i] in Dedupe(items)
  {
    var a, b := items[..i], items[i..];
    assert items == a + b;
    DedupeAppend(a, b, {});
    assert items[i].title !in LabelsOf(a);
    assert b[0] == items[i];
    var tail := DedupeFrom(b, {} + LabelsOf(a));
    assert tail[0] == items[i];
  }

  /** The search service's answer: parsed JSON (possibly `null`), or a thrown error. */
  datatype PlaceFetch = Fetched(places: Option<seq<Place>>) | FetchFailed

  /** The lot matches followed by the place answers, before deduplication. */
  function Merged(query: string, lots: seq<LotEntry>, places: Option<seq<Place>>): seq<Suggestion> {
    LocalMatches(lots, ToLower(query)) + PlaceSuggestions(places)
  }

  /**
   * The debounced suggestion update: cleared for a blank query, unchanged
   * when the fetch throws, otherwise the first six of the deduplicated
   * merge, lot matches (at most five) before places.
   */
  function NextSuggestions(current: seq<Suggestion>, query: string, lots: seq<LotEntry>,
                           fetch: PlaceFetch): (r: seq<Suggestion>)
    ensures IsBlank(query) ==> r == []
    ensures !IsBlank(query) && fetch.FetchFailed? ==> r == current
    ensures !IsBlank(query) && fetch.Fetched? ==>
      var d := Dedupe(Merged(query, lots, fetch.places));
      |r| == Min(SuggestionLimit, |d|) && r == d[..|r|]
    ensures !IsBlank(query) && fetch.Fetched? ==>
      && |r| <= SuggestionLimit
      && DistinctLabels(r)
      && (forall k :: 0 <= k < |r| && r[k].source.FromLot? ==> Contains(ToLower(r[k].title), ToLower(query)))
      && (forall i, j :: 0 <= i < j < |r| && r[j].source.FromLot? ==> r[i].source.FromLot?)
      && (forall k :: 0 <= k < |r| && r[k].source.FromLot? ==> k < LocalLimit)
  {
    if IsBlank(query) then []
    else if fetch.FetchFailed? then current
    else
      var local := LocalMatches(lots, ToLower(query));
      var d := Dedupe(Merged(query, lots, fetch.places));
      var r := Take(d, SuggestionLimit);
      LotsBeforePlaces(local, PlaceSuggestions(fetch.places));
      r
  }

  /** In the deduplicated merge every lot suggestion precedes every place suggestion. */
  lemma LotsBeforePlaces(local: seq<Suggestion>, places: seq<Suggestion>)
    requires forall k :: 0 <= k < |local| ==> local[k].source.FromLot?
    requires forall k :: 0 <= k < |places| ==> places[k].source.FromPlace?
    ensures var d := Dedupe(local + places);
      && (forall i, j :: 0 <= i < j < |d| && d[j].source.FromLot? ==> d[i].source.FromLot?)
      && (forall k :: 0 <= k < |d| && d[k].source.FromLot? ==> k < |local|)
  {
    DedupeAppend(local, places, {});
    var a := DedupeFrom(local, {});
    var b := DedupeFrom(places, {} + LabelsOf(local));
    forall k | 0 <= k < |b| ensures b[k].source.FromPlace? {
      assert b[k] in places;
    }
    forall k | 0 <= k < |a| ensures a[k].source.FromLot? {
      assert a[k] in local;
    }
  }

  /** When some lot matches, the first suggestion is the first matching lot. */
  lemma FirstMatchLeads(current: seq<Suggestion>, query: string, lots: seq<LotEntry>, places: Option<seq<Place>>)
    requires !IsBlank(query) && MatchingLots(lots, ToLower(query)) != []
    ensures var r := NextSuggestions(current, query, lots, Fetched(places));
      |r| > 0 && r[0] == LotSuggestion(MatchingLots(lots, ToLower(query))[0])
  {
    var local := LocalMatches(lots, ToLower(query));
    var merged := Merged(query, lots, places);
    assert merged[0] == local[0];
    DedupeHead(merged);
    var r := NextSuggestions(current, query, lots, Fetched(places));
    assert r == Dedupe(merged)[..|r|];
  }

  /** Deduplication keeps the first item in front. */
  lemma DedupeHead(items: seq<Suggestion>)
    requires items != []
    ensures |Dedupe(items)| > 0 && Dedupe(items)[0] == items[0]
  {
    var seen: set<string> := {};
    assert items[0].title !in seen;
    assert DedupeFrom(items, seen) == [items[0]] + DedupeFrom(items[1..], seen + {items[0].title});
  }

  /**
   * Every lot match whose label no earlier match carries is shown: the lot
   * part of the merge never exceeds five, so the cut at six keeps all of it.
   */
  lemma LocalMatchKept(current: seq<Suggestion>, query: string, lots: seq<LotEntry>,
                       places: Option<seq<Place>>, i: nat)
    requires !IsBlank(query)
    requires i < |LocalMatches(lots, ToLower(query))|
    requires var local := LocalMatches(lots, ToLower(query));
      forall j :: 0 <= j < i ==> local[j].title != local[i].title
    ensures LocalMatches(lots, ToLower(query))[i] in NextSuggestions(current, query, lots, Fetched(places))
  {
    var local := LocalMatches(lots, ToLower(query));
    var ps := PlaceSuggestions(places);
    DedupeKeepsFirst(local, i);
    DedupeAppend(local, ps, {});
    var a := DedupeFrom(local, {});
    var r := NextSuggestions(current, query, lots, Fetched(places));
    assert Merged(query, lots, places) == local + ps;
    InPrefix(a, DedupeFrom(ps, {} + LabelsOf(local)), r, local[i]);
  }

  /** An item of `a` lies in any prefix of `a + b` at least as long as `a`. */
  lemma InPrefix<T>(a: seq<T>, b: seq<T>, r: seq<T>, x: T)
    requires x in a && |a| <= |r| <= |a + b| && r == (a + b)[..|r|]
    ensures x in r
  {
    assert r[..|a|] == a;
  }

  /**
   * When the deduplicated merge fits in six, every place whose label neither
   * a lot match nor an earlier place carries is shown.
   */
  lemma PlaceKeptWhenRoom(current: seq<Suggestion>, query: string, lots: seq<LotEntry>,
                          places: seq<Place>, i: nat)
    requires !IsBlank(query)
    requires i < |places|
    requires |Dedupe(Merged(query, lots, Some(places)))| <= SuggestionLimit
    requires forall k :: 0 <= k < |LocalMatches(lots, ToLower(query))| ==>
      LocalMatches(lots, ToLower(query))[k].title != places[i].displayName
    requires forall j :: 0 <= j < i ==> places[j].displayName != places[i].displayName
    ensures PlaceSuggestion(places[i]) in NextSuggestions(current, query, lots, Fetched(Some(places)))
  {
    var local := LocalMatches(lots, ToLower(query));
    var merged := Merged(query, lots, Some(places));
    var n := |local| + i;
    assert merged[n] == PlaceSuggestion(places[i]);
    forall j | 0 <= j < n
      ensures merged[j].title != merged[n].title
    {
      if j < |local| {
        assert merged[j] == local[j];
      } else {
        assert merged[j] == PlaceSuggestion(places[j - |local|]);
      }
    }
    DedupeKeepsFirst(merged, n);
  }

  // ---------------------------------------------------------------------
  // Live timer and running bill
  // ---------------------------------------------------------------------

  const SecondMs := 1000
  const MinuteMs := 60_000
  const HourMs := 3_600_000
  const DefaultPricePerHour := 25

  /** `n.toString().padStart(2, '0')`. */
  function Field(n: int): string {
    PadStart2(IntToString(n))
  }

  function Hours(diff: int): int { FloorDiv(diff, HourMs) }
  function Minutes(diff: int): int { FloorDiv(JsRem(diff, HourMs), MinuteMs) }
  function Seconds(diff: int): int { FloorDiv(JsRem(diff, MinuteMs), SecondMs) }

  /** The `HH:MM:SS` text shown for `diff` milliseconds since the start. */
  function Clock(diff: int): string {
    Field(Hours(diff)) + ":" + Field(Minutes(diff)) + ":" + Field(Seconds(diff))
  }

  /** For a non-negative elapsed time the fields decompose the whole seconds. */
  lemma ClockFields(diff: int)
    requires diff >= 0
    ensures Hours(diff) >= 0
    ensures 0 <= Minutes(diff) < 60 && 0 <= Seconds(diff) < 60
    ensures Hours(diff) * 3600 + Minutes(diff) * 60 + Seconds(diff) == diff / SecondMs
  {
    var h := diff / HourMs;
    var rh := diff % HourMs;
    var m := rh / MinuteMs;
    var rm := diff % MinuteMs;
    assert diff == h * HourMs + rh;
    assert rh == m * MinuteMs + rh % MinuteMs;
    assert diff == (h * 60 + m) * MinuteMs + rh % MinuteMs;
    assert rm == rh % MinuteMs;
    assert diff == ((h * 60 + m) * 60) * SecondMs + rm;
  }

  lemma DigitsHaveNoColon(s: string)
    requires AllDigits(s)
    ensures ':' !in s
  {
  }

  /** Three colon-free fields joined by colons split back into the same three. */
  lemma SplitThree(a: string, b: string, c: string)
    requires ':' !in a && ':' !in b && ':' !in c
    ensures Split(a + ":" + b + ":" + c, ':') == [a, b, c]
  {
    assert a + ":" + b + ":" + c == a + [':'] + (b + [':'] + c);
    SplitHead(a, ':', b + [':'] + c);
    SplitHead(b, ':', c);
    SplitNoSep(c, ':');
  }

  /**
   * For a non-negative elapsed time the clock text reads back: three
   * colon-separated digit fields, minutes and seconds two digits wide, whose
   * values make up the elapsed whole seconds.
   */
  lemma ClockReadsBack(diff: int)
    requires diff >= 0
    ensures var parts := Split(Clock(diff), ':');
      && |parts| == 3
      && AllDigits(parts[0]) && AllDigits(parts[1]) && AllDigits(parts[2])
      && |parts[1]| == 2 && |parts[2]| == 2
      && ParseDigits(parts[0]) * 3600 + ParseDigits(parts[1]) * 60 + ParseDigits(parts[2]) == diff / SecondMs
  {
    ClockFields(diff);
    var h, m, s := Hours(diff), Minutes(diff), Seconds(diff);
    var fh, fm, fs := Field(h), Field(m), Field(s);
    PadStart2Value(h);
    PadStart2Value(m);
    PadStart2Value(s);
    DigitsHaveNoColon(fh);
    DigitsHaveNoColon(fm);
    DigitsHaveNoColon(fs);
    SplitThree(fh, fm, fs);
  }

  /** `pricePerHour || 25`: a missing or zero price falls back to 25. */
  function EffectivePrice(price: Option<int>): (r: int)
    ensures price.Some? && price.value != 0 ==> r == price.value
    ensures price.None? || price.value == 0 ==> r == DefaultPricePerHour
  {
    if price.Some? && price.value != 0 then price.value else DefaultPricePerHour
  }

  /** `Math.ceil(diff / HourMs * price)`: every started fraction of an hour is charged. */
  function CurrentBill(diff: int, price: Option<int>): (r: int)
    ensures var p := EffectivePrice(price);
      (r - 1) * HourMs < diff * p <= r * HourMs
  {
    CeilDiv(diff * EffectivePrice(price), HourMs)
  }

  /** At a fixed price the bill never goes down as time passes. */
  lemma BillMonotone(d1: int, d2: int, price: Option<int>)
    requires 0 <= d1 <= d2
    requires EffectivePrice(price) >= 0
    ensures CurrentBill(d1, price) <= CurrentBill(d2, price)
  {
    var p := EffectivePrice(price);
    assert d1 * p <= d2 * p;
  }
}

=== FILE: lot.dfy ===
/**
 * The parking-lot record (Backend/src/models/ParkingLot.model.js): its
 * enumerations, defaults, creation-time validation and the pre-save hook
 * that derives `status` from the occupancy counters.
 *
 * The schema puts no range on `totalSpots` or `occupiedSpots`, so both are
 * plain integers here and nothing assumes `0 <= occupied <= total`.
 */
module LotModel {
  import opened Opt
  import Text

  type Id = string

  datatype LotType = Car | Bike | Both
  datatype LotStatus = Available | Full

  datatype Lot = Lot(
    id: Id,
    name: string,
    lat: real,
    lon: real,
    pricePerHour: int,
    totalSpots: int,
    occupiedSpots: int,
    kind: LotType,
    status: LotStatus)

  function LotTypeName(t: LotType): string {
    match t
    case Car => "car"
    case Bike => "bike"
    case Both => "both"
  }

  /** The `type` enum check: only "car", "bike" and "both" are accepted. */
  function ParseLotType(s: string): (r: Option<LotType>)
    ensures r.Some? <==> s in {"car", "bike", "both"}
    ensures r.Some? ==> LotTypeName(r.value) == s
  {
    if s == "car" then Some(Car)
    else if s == "bike" then Some(Bike)
    else if s == "both" then Some(Both)
    else None
  }

  function LotStatusName(st: LotStatus): string {
    match st
    case Available => "available"
    case Full => "full"
  }

  /** The `status` enum check: only "available" and "full" are accepted. */
  function ParseLotStatus(s: string): (r: Option<LotStatus>)
    ensures r.Some? <==> s in {"available", "full"}
    ensures r.Some? ==> LotStatusName(r.value) == s
  {
    if s == "available" then Some(Available)
    else if s == "full" then Some(Full)
    else None
  }

  /** Every enum value is accepted back from its own name. */
  lemma EnumNamesRoundTrip(t: LotType, st: LotStatus)
    ensures ParseLotType(LotTypeName(t)) == Some(t)
    ensures ParseLotStatus(LotStatusName(st)) == Some(st)
  {
  }

  /** The status a lot with these counters should carry. */
  function StatusFor(occupied: int, total: int): LotStatus {
    if occupied >= total then Full else Available
  }

  predicate StatusConsistent(lot: Lot) {
    lot.status == StatusFor(lot.occupiedSpots, lot.totalSpots)
  }

  /** The pre-save hook: recompute `status`, touch nothing else. */
  function PreSave(lot: Lot): (r: Lot)
    ensures r.status == Full <==> lot.occupiedSpots >= lot.totalSpots
    ensures r.status == Available <==> lot.occupiedSpots < lot.totalSpots
    ensures r == lot.(status := r.status)
  {
    lot.(status := StatusFor(lot.occupiedSpots, lot.totalSpots))
  }

  /** Running the hook twice gives the same lot as running it once. */
  lemma PreSaveIdempotent(lot: Lot)
    ensures PreSave(PreSave(lot)) == PreSave(lot)
  {
  }

  /** The hook changes a lot exactly when its stored status is stale. */
  lemma PreSaveFixesOnlyStale(lot: Lot)
    ensures PreSave(lot) == lot <==> StatusConsistent(lot)
    ensures StatusConsistent(PreSave(lot))
  {
  }

  /** The fields a caller may supply when creating a lot; absent ones are `None`. */
  datatype LotInput = LotInput(
    name: Option<string>,
    lat: Option<real>,
    lon: Option<real>,
    pricePerHour: Option<int>,
    totalSpots: Option<int>,
    kind: Option<string>)

  datatype LotError = MissingField(field: string) | BadEnum(field: string)

  /**
   * `ParkingLot.create(input)`: apply the schema (trim the name, check the
   * required fields and the `type` enum, fill the defaults) and then the
   * pre-save hook.
   */
  function CreateLot(id: Id, input: LotInput): (r: Result<Lot, LotError>)
    ensures r.Ok? <==>
      && input.name.Some? && Text.Trim(input.name.value) != ""
      && input.lat.Some? && input.lon.Some?
      && input.pricePerHour.Some? && input.totalSpots.Some?
      && (input.kind.None? || ParseLotType(input.kind.value).Some?)
    ensures r.Ok? ==>
      && r.value.id == id
      && r.value.name == Text.Trim(input.name.value)
      && r.value.lat == input.lat.value && r.value.lon == input.lon.value
      && r.value.pricePerHour == input.pricePerHour.value
      && r.value.totalSpots == input.totalSpots.value
      && r.value.occupiedSpots == 0
      && (input.kind.None? ==> r.value.kind == Both)
      && (input.kind.Some? ==> LotTypeName(r.value.kind) == input.kind.value)
      && StatusConsistent(r.value)
  {
    var name := Text.Trim(input.name.GetOr(""));
    if name == "" then Err(MissingField("name"))
    else if input.lat.None? then Err(MissingField("lat"))
    else if input.lon.None? then Err(MissingField("lon"))
    else if input.pricePerHour.None? then Err(MissingField("pricePerHour"))
    else if input.totalSpots.None? then Err(MissingField("totalSpots"))
    else
      var kind := if input.kind.None? then Some(Both) else ParseLotType(input.kind.value);
      if kind.None? then Err(BadEnum("type"))
      else
        Ok(PreSave(Lot(id, name, input.lat.value, input.lon.value, input.pricePerHour.value,
                       input.totalSpots.value, 0, kind.value, Available)))
  }

  /** A new lot defaults to no occupancy, type `both` and status `available` when it has room. */
  lemma NewLotDefaults(id: Id, name: string, lat: real, lon: real, price: int, total: int)
    requires Text.Trim(name) != ""
    requires total > 0
    ensures var r := CreateLot(id, LotInput(Some(name), Some(lat), Some(lon), Some(price), Some(total), None));
      && r.Ok?
      && r.value.occupiedSpots == 0
      && r.value.kind == Both
      && r.value.status == Available
  {
  }
}

=== FILE: lot_detail.dfy ===
/**
 * The lot detail page (frontend/src/pages/ParkingLotDetail.jsx): the free
 * slot count, the occupancy percentage, and the booking form's validation
 * chain and reset. Times are what `new Date(...)` makes of the form's text:
 * the parameter `parse` yields milliseconds, or `None` for an invalid date.
 */
module LotDetail {
  import opened Opt
  import opened JsMath

  /** The lot as the page received it; a missing counter is `None`. */
  datatype LotView = LotView(id: string, totalSpots: Option<int>, occupiedSpots: Option<int>)

  /** `x || 0`: a missing counter reads as 0. */
  function Count(x: Option<int>): int {
    x.GetOr(0)
  }

  /** `Math.max(0, total - occupied)`, and 0 when there is no lot. */
  function AvailableSlots(lot: Option<LotView>): (r: nat)
    ensures r == 0 <==> lot.None? || Count(lot.value.occupiedSpots) >= Count(lot.value.totalSpots)
    ensures r > 0 ==> r + Count(lot.value.occupiedSpots) == Count(lot.value.totalSpots)
  {
    if lot.None? then 0
    else Max(0, Count(lot.value.totalSpots) - Count(lot.value.occupiedSpots))
  }

  /** `!lot?.totalSpots`: no lot, no total, or a zero total. */
  predicate NoCapacity(lot: Option<LotView>) {
    lot.None? || lot.value.totalSpots.None? || lot.value.totalSpots.value == 0
  }

  /** `Math.min(100, Math.round(occupied / total * 100))`, and 0 without capacity. */
  function OccupancyPercent(lot: Option<LotView>): (r: int)
    ensures r <= 100
    ensures NoCapacity(lot) ==> r == 0
    ensures !NoCapacity(lot) && lot.value.totalSpots.value > 0 && r < 100 ==>
      var t := lot.value.totalSpots.value;
      2 * r * t - t <= 200 * Count(lot.value.occupiedSpots) < 2 * r * t + t
  {
    if NoCapacity(lot) then 0
    else Min(100, RoundDiv(Count(lot.value.occupiedSpots) * 100, lot.value.totalSpots.value))
  }

  /** With a positive total and a non-negative count the percentage lies in 0..100. */
  lemma OccupancyPercentBounded(lot: Option<LotView>)
    requires lot.Some? && lot.value.totalSpots.Some? && lot.value.totalSpots.value > 0
    requires Count(lot.value.occupiedSpots) >= 0
    ensures 0 <= OccupancyPercent(lot) <= 100
  {
    var t := lot.value.totalSpots.value;
    var o := Count(lot.value.occupiedSpots);
    var q := RoundDiv(o * 100, t);
    assert 2 * o * 100 < 2 * q * t + t;
    assert (2 * q + 1) * t > 0;
  }

  /** The booking form's fields. */
  datatype BookingForm = BookingForm(slots: int, startTime: string, endTime: string)

  /** The request body sent to `/book`. */
  datatype BookRequest = BookRequest(parkingLotId: string, slots: int, startTime: int, endTime: int)

  datatype BookOutcome =
    | NoLot                      // returns at once: nothing shown, nothing sent
    | Invalid(message: string)   // a validation message; nothing sent
    | Send(request: BookRequest)

  const MissingTimes := "Please provide both start and end times."
  const EndNotAfterStart := "End time must be after start time."
  const SlotsUnavailable := "Requested slots are not available."
  /** Shown when an unparseable date makes `toISOString` throw before the request. */
  const RequestFailed := "Booking failed. Please try again."
  /** Shown when the server refuses without a message of its own. */
  const BookingFailed := "Booking failed."

  /**
   * `handleBook`: the checks run in order and the first failure's message
   * wins. An invalid date passes the ordering check (comparisons with NaN
   * are false) and then throws while the body is built.
   */
  function HandleBook(lot: Option<LotView>, form: BookingForm, parse: string -> Option<int>): (r: BookOutcome)
    ensures lot.None? <==> r == NoLot
    ensures r == Invalid(MissingTimes) <==> lot.Some? && (form.startTime == "" || form.endTime == "")
    ensures r == Invalid(EndNotAfterStart) <==>
      && lot.Some? && form.startTime != "" && form.endTime != ""
      && parse(form.startTime).Some? && parse(form.endTime).Some?
      && parse(form.endTime).value <= parse(form.startTime).value
    ensures r == Invalid(SlotsUnavailable) <==>
      && lot.Some? && form.startTime != "" && form.endTime != ""
      && !(parse(form.startTime).Some? && parse(form.endTime).Some?
           && parse(form.endTime).value <= parse(form.startTime).value)
      && (form.slots < 1 || form.slots > AvailableSlots(lot))
    ensures r == Invalid(RequestFailed) <==>
      && lot.Some? && form.startTime != "" && form.endTime != ""
      && (parse(form.startTime).None? || parse(form.endTime).None?)
      && 1 <= form.slots <= AvailableSlots(lot)
    ensures r.Send? <==>
      && lot.Some? && form.startTime != "" && form.endTime != ""
      && parse(form.startTime).Some? && parse(form.endTime).Some?
      && parse(form.startTime).value < parse(form.endTime).value
      && 1 <= form.slots <= AvailableSlots(lot)
    ensures r.Send? ==> r.request == BookRequest(lot.value.id, form.slots,
                                                 parse(form.startTime).value, parse(form.endTime).value)
  {
    if lot.None? then NoLot
    else if form.startTime == "" || form.endTime == "" then Invalid(MissingTimes)
    else
      var s := parse(form.startTime);
      var e := parse(form.endTime);
      if s.Some? && e.Some? && e.value <= s.value then Invalid(EndNotAfterStart)
      else if form.slots < 1 || form.slots > AvailableSlots(lot) then Invalid(SlotsUnavailable)
      else if s.None? || e.None? then Invalid(RequestFailed)
      else Send(BookRequest(lot.value.id, form.slots, s.value, e.value))
  }

  /** A lot without a free slot never gets a booking request. */
  lemma NoRequestWhenFull(lot: Option<LotView>, form: BookingForm, parse: string -> Option<int>)
    requires AvailableSlots(lot) == 0
    ensures !HandleBook(lot, form, parse).Send?
  {
  }

  /** What the server answered, or a network failure. */
  datatype BookResponse = Answered(ok: bool, success: bool, message: Option<string>) | NetworkError

  datatype FormState = FormState(form: BookingForm, error: string, success: string)

  /** After the request: a confirmed booking resets the form; anything else shows an error. */
  function AfterBooking(form: BookingForm, resp: BookResponse): (r: FormState)
    ensures resp.Answered? && resp.ok && resp.success ==>
      r == FormState(BookingForm(1, "", ""), "", "Booking confirmed successfully.")
    ensures !(resp.Answered? && resp.ok && resp.success) ==> r.form == form && r.success == "" && r.error != ""
    ensures resp.Answered? && !(resp.ok && resp.success) ==>
      r.error == (if resp.message.Some? && resp.message.value != "" then resp.message.value else BookingFailed)
    ensures resp.NetworkError? ==> r == FormState(form, RequestFailed, "")
  {
    match resp
    case NetworkError => FormState(form, RequestFailed, "")
    case Answered(ok, success, message) =>
      if ok && success then FormState(BookingForm(1, "", ""), "", "Booking confirmed successfully.")
      else if message.Some? && message.value != "" then FormState(form, message.value, "")
      else FormState(form, BookingFailed, "")
  }
}

=== FILE: numeric.dfy ===
/**
 * JavaScript's integer-valued arithmetic on exact rationals: `Math.floor`,
 * `Math.ceil` and `Math.round` of a quotient, and the `%` operator, which
 * truncates toward zero. Dafny's own `/` and `%` are Euclidean, so each is
 * written out here once.
 */
module JsMath {

  /** `Math.floor(a / b)`. */
  function FloorDiv(a: int, b: int): (r: int)
    requires b != 0
    ensures b > 0 ==> r * b <= a < r * b + b
    ensures b < 0 ==> r * b >= a > r * b + b
  {
    if b > 0 then a / b else (-a) / (-b)
  }

  /** `Math.ceil(a / b)` for a positive divisor. */
  function CeilDiv(a: int, b: int): (r: int)
    requires b > 0
    ensures r * b - b < a <= r * b
  {
    -((-a) / b)
  }

  /** `Math.round(a / b)`: the nearest integer, halves rounded toward +infinity. */
  function RoundDiv(a: int, b: int): (r: int)
    requires b != 0
    ensures b > 0 ==> 2 * r * b - b <= 2 * a < 2 * r * b + b
    ensures b < 0 ==> 2 * r * b - b >= 2 * a > 2 * r * b + b
  {
    FloorDiv(2 * a + b, 2 * b)
  }

  /** JavaScript's `a % b` for a positive divisor: the sign follows the dividend. */
  function JsRem(a: int, b: int): (r: int)
    requires b > 0
    ensures -b < r < b
    ensures a >= 0 ==> 0 <= r && r == a % b
    ensures a < 0 ==> r <= 0 && -r == (-a) % b
  {
    if a >= 0 then a % b else -((-a) % b)
  }

  function Max(a: int, b: int): (r: int)
    ensures r >= a && r >= b
    ensures r == a || r == b
  {
    if a >= b then a else b
  }

  function Min(a: int, b: int): (r: int)
    ensures r <= a && r <= b
    ensures r == a || r == b
  {
    if a <= b then a else b
  }
}

=== FILE: parking.dfy ===
/**
 * The parking controller (Backend/src/controller/parking.controller.js) as
 * pure transitions on a store. Each collection is a sequence in insertion
 * order, which is also the order `find` and `findOne` visit documents.
 * Requests are handled one at a time.
 */
module ParkingController {
  import opened Opt
  import opened Http
  import L = LotModel
  import S = SessionModel
  import U = UserModel

  type Id = string

  datatype Store = Store(lots: seq<L.Lot>, sessions: seq<S.Session>, users: seq<U.User>)

  // ---------------------------------------------------------------------
  // Lots
  // ---------------------------------------------------------------------

  predicate LotIdTaken(lots: seq<L.Lot>, id: Id) {
    exists k :: 0 <= k < |lots| && lots[k].id == id
  }

  predicate LotIdsUnique(lots: seq<L.Lot>) {
    forall i, j :: 0 <= i < j < |lots| ==> lots[i].id != lots[j].id
  }

  /** `ParkingLot.findById(id)`: the first lot with that id. */
  function FindLot(lots: seq<L.Lot>, id: Id): (r: Option<L.Lot>)
    ensures r.None? <==> !LotIdTaken(lots, id)
    ensures r.Some? ==> r.value in lots && r.value.id == id
  {
    if |lots| == 0 then None
    else if lots[0].id == id then Some(lots[0])
    else
      var rest := FindLot(lots[1..], id);
      assert LotIdTaken(lots, id) <==> LotIdTaken(lots[1..], id) by {
        if LotIdTaken(lots, id) {
          var k :| 0 <= k < |lots| && lots[k].id == id;
          assert k > 0 && lots[1..][k - 1].id == id;
        }
      }
      rest
  }

  /**
   * `findByIdAndUpdate(id, {$inc: {occupiedSpots: 1}})`: bump the counter of
   * the lot with that id. The update bypasses the pre-save hook, so `status`
   * is not recomputed, and `totalSpots` is never read.
   */
  function IncOccupied(lots: seq<L.Lot>, id: Id): (r: seq<L.Lot>)
    ensures |r| == |lots|
    ensures forall i :: 0 <= i < |lots| ==> r[i] == lots[i].(occupiedSpots := r[i].occupiedSpots)
    ensures forall i :: 0 <= i < |lots| ==>
      r[i].occupiedSpots - lots[i].occupiedSpots == (if lots[i].id == id then 1 else 0)
  {
    seq(|lots|, i requires 0 <= i < |lots| =>
      if lots[i].id == id then lots[i].(occupiedSpots := lots[i].occupiedSpots + 1) else lots[i])
  }

  /** Total occupied spots over a list of lots. */
  function OccupiedTotal(lots: seq<L.Lot>): int {
    if |lots| == 0 then 0 else lots[0].occupiedSpots + OccupiedTotal(lots[1..])
  }

  /** With unique ids, the increment adds exactly one spot in total, or none for an unknown id. */
  lemma {:induction false} IncOccupiedAddsOne(lots: seq<L.Lot>, id: Id)
    requires LotIdsUnique(lots)
    ensures OccupiedTotal(IncOccupied(lots, id)) == OccupiedTotal(lots) + (if LotIdTaken(lots, id) then 1 else 0)
    decreases |lots|
  {
    if |lots| > 0 {
      var r := IncOccupied(lots, id);
      assert IncOccupied(lots[1..], id) == r[1..];
      IncOccupiedAddsOne(lots[1..], id);
      if lots[0].id == id {
        assert !LotIdTaken(lots[1..], id);
      } else {
        assert LotIdTaken(lots, id) <==> LotIdTaken(lots[1..], id) by {
          if LotIdTaken(lots, id) {
            var k :| 0 <= k < |lots| && lots[k].id == id;
            assert lots[1..][k - 1].id == id;
          }
          if LotIdTaken(lots[1..], id) {
            var k :| 0 <= k < |lots[1..]| && lots[1..][k].id == id;
            assert lots[k + 1].id == id;
          }
        }
      }
    }
  }

  // ---------------------------------------------------------------------
  // Sessions
  // ---------------------------------------------------------------------

  predicate SessionIdTaken(sessions: seq<S.Session>, id: Id) {
    exists k :: 0 <= k < |sessions| && sessions[k].id == id
  }

  predicate IsActiveFor(s: S.Session, user: Id) {
    s.user == user && s.status == S.Active
  }

  predicate HasActive(sessions: seq<S.Session>, user: Id) {
    exists k :: 0 <= k < |sessions| && IsActiveFor(sessions[k], user)
  }

  /** No user owns two active sessions. */
  predicate AtMostOneActive(sessions: seq<S.Session>) {
    forall i, j :: 0 <= i < j < |sessions| && sessions[i].status == S.Active && sessions[j].status == S.Active
      ==> sessions[i].user != sessions[j].user
  }

  /** `ParkingSession.findOne({user, status: "active"})`: the first active session of the user. */
  function FindActive(sessions: seq<S.Session>, user: Id): (r: Option<S.Session>)
    ensures r.None? <==> !HasActive(sessions, user)
    ensures r.Some? ==> r.value in sessions && IsActiveFor(r.value, user)
  {
    if |sessions| == 0 then None
    else if IsActiveFor(sessions[0], user) then Some(sessions[0])
    else
      var rest := FindActive(sessions[1..], user);
      assert HasActive(sessions, user) <==> HasActive(sessions[1..], user) by {
        if HasActive(sessions, user) {
          var k :| 0 <= k < |sessions| && IsActiveFor(sessions[k], user);
          assert IsActiveFor(sessions[1..][k - 1], user);
        }
        if HasActive(sessions[1..], user) {
          var k :| 0 <= k < |sessions[1..]| && IsActiveFor(sessions[1..][k], user);
          assert IsActiveFor(sessions[k + 1], user);
        }
      }
      rest
  }

  /** The store invariant the handlers keep when run one after another. */
  predicate Valid(st: Store) {
    LotIdsUnique(st.lots) && AtMostOneActive(st.sessions)
  }

  // ---------------------------------------------------------------------
  // Handlers
  // ---------------------------------------------------------------------

  /** `getAllParkingLots`: every lot, in collection order, and no change to the store. */
  function GetAllParkingLots(st: Store): (r: (Store, Reply<seq<L.Lot>>))
    ensures r.0 == st
    ensures r.1.code == 200 && r.1.success
    ensures r.1.data == Some(st.lots)
  {
    (st, Succeed(200, st.lots))
  }

  /** A session with its `parkingLot` reference populated (`None` when the lot is gone). */
  datatype PopulatedSession = Populated(session: S.Session, lot: Option<L.Lot>)

  /** `getActiveSession`: the caller's active session, or `null`. */
  function GetActiveSession(st: Store, caller: Id): (r: (Store, Reply<Option<PopulatedSession>>))
    ensures r.0 == st
    ensures r.1.code == 200 && r.1.success && r.1.data.Some?
    ensures r.1.data.value.None? <==> !HasActive(st.sessions, caller)
    ensures r.1.data.value.Some? ==>
      && r.1.data.value.value.session in st.sessions
      && IsActiveFor(r.1.data.value.value.session, caller)
      && r.1.data.value.value.lot == FindLot(st.lots, r.1.data.value.value.session.parkingLot)
  {
    var found := FindActive(st.sessions, caller);
    var populated := if found.None? then None
                     else Some(Populated(found.value, FindLot(st.lots, found.value.parkingLot)));
    (st, Succeed(200, populated))
  }

  datatype StartRequest = StartRequest(parkingLotId: Option<Id>, vehicleType: Option<string>)

  /**
   * `startSession`: refuse a caller who already has an active session;
   * otherwise create an active session for the caller and add one to the
   * lot's occupied spots. A request the session schema rejects fails with
   * 500 before anything is written.
   */
  function StartSession(st: Store, caller: Id, req: StartRequest, newId: Id, now: int): (r: (Store, Reply<S.Session>))
    requires !SessionIdTaken(st.sessions, newId)
    ensures HasActive(st.sessions, caller) ==>
      r.0 == st && r.1 == Fail(400, "User already has an active session")
    ensures !HasActive(st.sessions, caller) &&
            S.CreateSession(newId, Some(caller), req.parkingLotId, req.vehicleType, now).Err? ==>
      r.0 == st && r.1.code == 500 && !r.1.success
    ensures r.1.success <==>
      !HasActive(st.sessions, caller) && S.CreateSession(newId, Some(caller), req.parkingLotId, req.vehicleType, now).Ok?
    ensures r.1.success ==>
      && r.1.code == 201
      && r.1.data.Some?
      && var s := r.1.data.value;
      && s.id == newId && s.user == caller && s.status == S.Active && s.startTime == now
      && Some(s.parkingLot) == req.parkingLotId
      && Some(S.VehicleTypeName(s.vehicleType)) == req.vehicleType
      && r.0.sessions == st.sessions + [s]
      && r.0.lots == IncOccupied(st.lots, s.parkingLot)
      && r.0.users == st.users
  {
    if FindActive(st.sessions, caller).Some? then
      (st, Fail(400, "User already has an active session"))
    else
      match S.CreateSession(newId, Some(caller), req.parkingLotId, req.vehicleType, now)
      case Err(_) => (st, Fail(500, "ParkingSession validation failed"))
      case Ok(s) =>
        (st.(sessions := st.sessions + [s], lots := IncOccupied(st.lots, s.parkingLot)), Reply(201, true, "", Some(s)))
  }

  /** Run one after another, starts never give a user a second active session. */
  lemma StartSessionPreservesValid(st: Store, caller: Id, req: StartRequest, newId: Id, now: int)
    requires !SessionIdTaken(st.sessions, newId)
    requires Valid(st)
    ensures Valid(StartSession(st, caller, req, newId, now).0)
  {
    var r := StartSession(st, caller, req, newId, now);
    if r.1.success {
      var s := r.1.data.value;
      var ss := r.0.sessions;
      forall i, j | 0 <= i < j < |ss| && ss[i].status == S.Active && ss[j].status == S.Active
        ensures ss[i].user != ss[j].user
      {
        if j == |ss| - 1 {
          assert ss[j] == s;
          assert ss[i] == st.sessions[i];
          assert !IsActiveFor(st.sessions[i], caller);
        } else {
          assert ss[i] == st.sessions[i] && ss[j] == st.sessions[j];
        }
      }
      var ls := r.0.lots;
      forall i, j | 0 <= i < j < |ls| ensures ls[i].id != ls[j].id {
        assert ls[i].id == st.lots[i].id && ls[j].id == st.lots[j].id;
      }
    }
  }

  /**
   * A successful start adds exactly one occupied spot to the named lot and
   * writes nothing else on it: its status and capacity stay as they were.
   */
  lemma StartSessionOccupancy(st: Store, caller: Id, req: StartRequest, newId: Id, now: int)
    requires !SessionIdTaken(st.sessions, newId)
    requires StartSession(st, caller, req, newId, now).1.success
    requires FindLot(st.lots, req.parkingLotId.value).Some?
    ensures var lot := FindLot(st.lots, req.parkingLotId.value).value;
      FindLot(StartSession(st, caller, req, newId, now).0.lots, req.parkingLotId.value) ==
        Some(lot.(occupiedSpots := lot.occupiedSpots + 1))
  {
    StartSessionLots(st, caller, req, newId, now);
    IncOccupiedFind(st.lots, req.parkingLotId.value);
  }

  /** With unique lot ids a successful start on an existing lot adds one to the total occupancy. */
  lemma StartSessionTotal(st: Store, caller: Id, req: StartRequest, newId: Id, now: int)
    requires !SessionIdTaken(st.sessions, newId)
    requires LotIdsUnique(st.lots)
    requires StartSession(st, caller, req, newId, now).1.success
    requires FindLot(st.lots, req.parkingLotId.value).Some?
    ensures OccupiedTotal(StartSession(st, caller, req, newId, now).0.lots) == OccupiedTotal(st.lots) + 1
  {
    StartSessionLots(st, caller, req, newId, now);
    IncOccupiedAddsOne(st.lots, req.parkingLotId.value);
  }

  /** The lots a successful start leaves: the named lot's counter incremented. */
  lemma StartSessionLots(st: Store, caller: Id, req: StartRequest, newId: Id, now: int)
    requires !SessionIdTaken(st.sessions, newId)
    requires StartSession(st, caller, req, newId, now).1.success
    ensures req.parkingLotId.Some?
    ensures StartSession(st, caller, req, newId, now).0.lots == IncOccupied(st.lots, req.parkingLotId.value)
  {
    var r := StartSession(st, caller, req, newId, now);
    assert Some(r.1.data.value.parkingLot) == req.parkingLotId;
  }

  lemma {:induction false} IncOccupiedFind(lots: seq<L.Lot>, id: Id)
    requires FindLot(lots, id).Some?
    ensures var lot := FindLot(lots, id).value;
      FindLot(IncOccupied(lots, id), id) == Some(lot.(occupiedSpots := lot.occupiedSpots + 1))
    decreases |lots|
  {
    var r := IncOccupied(lots, id);
    if lots[0].id != id {
      assert IncOccupied(lots[1..], id) == r[1..];
      IncOccupiedFind(lots[1..], id);
    }
  }

  /**
   * Starting a session on a lot that is already full still succeeds and
   * pushes its occupancy past capacity, and starting one on a lot with a
   * single free spot leaves its status `available`.
   */
  lemma StartSessionIgnoresCapacity()
    ensures var lot := L.Lot("lot", "Lot", 0.0, 0.0, 50, 1, 1, L.Both, L.Full);
      var st := Store([lot], [], []);
      var r := StartSession(st, "driver", StartRequest(Some("lot"), Some("car")), "s1", 0);
      r.1.success && r.0.lots[0].occupiedSpots == 2 && r.0.lots[0].totalSpots == 1
    ensures var lot := L.Lot("lot", "Lot", 0.0, 0.0, 50, 1, 0, L.Both, L.Available);
      var st := Store([lot], [], []);
      var r := StartSession(st, "driver", StartRequest(Some("lot"), Some("car")), "s1", 0);
      r.1.success && r.0.lots[0].occupiedSpots == 1 && r.0.lots[0].status == L.Available
  {
    var full := L.Lot("lot", "Lot", 0.0, 0.0, 50, 1, 1, L.Both, L.Full);
    assert !HasActive([], "driver");
    assert IncOccupied([full], "lot")[0] == full.(occupiedSpots := 2);
    var free := L.Lot("lot", "Lot", 0.0, 0.0, 50, 1, 0, L.Both, L.Available);
    assert IncOccupied([free], "lot")[0] == free.(occupiedSpots := 1);
  }
}

=== FILE: profile.dfy ===
/**
 * The profile page's display helpers (frontend/src/pages/Profile.jsx): the
 * role label, the avatar initials, the display name, whether the uploaded
 * photo is shown, and the fields of the check-in QR code. Case mapping is
 * ASCII only.
 */
module ProfileView {
  import opened Opt
  import opened Text
  import UserModel
  import EntryScanner

  /** The profile as the page fetched it; any field may be missing. */
  datatype Profile = Profile(
    id: Option<string>,
    firstName: Option<string>,
    lastName: Option<string>,
    username: Option<string>,
    email: Option<string>,
    role: Option<string>,
    photo: Option<string>)

  /** JavaScript truthiness of an optional string. */
  predicate Truthy(s: Option<string>) {
    s.Some? && s.value != ""
  }

  /** `formatRoleLabel`: "driver" reads as "user"; a missing role too. */
  function FormatRoleLabel(role: Option<string>): (r: string)
    ensures !Truthy(role) || role == Some("driver") ==> r == "User"
    ensures Truthy(role) && role != Some("driver") ==>
      |r| == |role.value| && r[0] == UpperChar(role.value[0]) && r[1..] == role.value[1..]
  {
    var normalized := if role == Some("driver") || !Truthy(role) then "user" else role.value;
    [UpperChar(normalized[0])] + normalized[1..]
  }

  /** Every role of the user model gets one of three labels. */
  lemma RoleLabels(role: UserModel.Role)
    ensures FormatRoleLabel(Some(UserModel.RoleName(role))) ==
      match role
      case Driver => "User"
      case Guard => "Guard"
      case Superadmin => "Superadmin"
  {
  }

  /**
   * The avatar text: both initials when both names are present, else the
   * first two characters of the username, else "U"; upper-cased.
   */
  function Initials(p: Profile): (r: string)
    ensures 1 <= |r| <= 2
    ensures forall i :: 0 <= i < |r| ==> !IsLower(r[i])
    ensures Truthy(p.firstName) && Truthy(p.lastName) ==>
      r == [UpperChar(p.firstName.value[0]), UpperChar(p.lastName.value[0])]
    ensures !(Truthy(p.firstName) && Truthy(p.lastName)) && Truthy(p.username) ==>
      r == ToUpper(p.username.value[..if |p.username.value| < 2 then |p.username.value| else 2])
    ensures !(Truthy(p.firstName) && Truthy(p.lastName)) && !Truthy(p.username) ==> r == "U"
  {
    if Truthy(p.firstName) && Truthy(p.lastName) then
      ToUpper([p.firstName.value[0], p.lastName.value[0]])
    else if Truthy(p.username) then
      var u := p.username.value;
      ToUpper(u[..if |u| < 2 then |u| else 2])
    else "U"
  }

  /** The heading: "first last", else the username, else "User". */
  function DisplayName(p: Profile): (r: string)
    ensures r != ""
    ensures Truthy(p.firstName) && Truthy(p.lastName) ==>
      r == p.firstName.value + " " + p.lastName.value
    ensures !(Truthy(p.firstName) && Truthy(p.lastName)) ==>
      r == (if Truthy(p.username) then p.username.value else "User")
  {
    if Truthy(p.firstName) && Truthy(p.lastName) then p.firstName.value + " " + p.lastName.value
    else if Truthy(p.username) then p.username.value
    else "User"
  }

  /** Without a space in the first name the heading splits back into the two names. */
  lemma DisplayNameSplits(p: Profile)
    requires Truthy(p.firstName) && Truthy(p.lastName) && ' ' !in p.firstName.value
    ensures |Split(DisplayName(p), ' ')| >= 2
    ensures Split(DisplayName(p), ' ')[0] == p.firstName.value
  {
    SplitHead(p.firstName.value, ' ', p.lastName.value);
    assert DisplayName(p) == p.firstName.value + [' '] + p.lastName.value;
  }

  /** The placeholder avatar the seed data uses. */
  const PlaceholderMarker := "seed=John%20Doe"

  /** The uploaded photo is shown unless it is empty or the placeholder. */
  function ShowPhoto(p: Profile): (r: bool)
    ensures r ==> p.photo.Some? && p.photo.value != ""
    ensures r <==> Truthy(p.photo) && !Contains(p.photo.value, PlaceholderMarker)
  {
    Truthy(p.photo) && !Contains(p.photo.value, PlaceholderMarker)
  }

  /** The object serialised into the check-in QR code. */
  datatype QrPayload = QrPayload(userId: Option<string>, username: Option<string>,
                                 email: Option<string>, timestamp: string, action: string)

  const CheckInOut := "check-in/out"

  /** The QR object for this profile, stamped with the ISO time `timestamp`. */
  function QrPayloadFor(p: Profile, timestamp: string): (r: QrPayload)
    ensures r.action == CheckInOut
    ensures r.userId == p.id && r.username == p.username && r.email == p.email
    ensures r.timestamp == timestamp
  {
    QrPayload(p.id, p.username, p.email, timestamp, CheckInOut)
  }

  /**
   * Scanning this profile's code at the guard page: once the text parses to
   * the QR object, the entry request names the profile's owner and the
   * selected lot, whatever the camera stop did and whatever the server says.
   */
  lemma QrScansToOwner(p: Profile, timestamp: string, text: string, page: EntryScanner.Page,
                       stopOk: bool, selectedLot: string, resp: EntryScanner.EntryResponse)
    requires Truthy(p.id) && EntryScanner.LotSelected(selectedLot)
    ensures var q := QrPayloadFor(p, timestamp);
      && EntryScanner.ExtractUserId(text, EntryScanner.JsonValue(q.userId)) == p.id.value
      && EntryScanner.HandleScan(page, stopOk, text, EntryScanner.JsonValue(q.userId), selectedLot, resp).1
         == Some(EntryScanner.EntryRequest(p.id.value, selectedLot))
  {
  }
}

=== FILE: reset_password.dfy ===
/**
 * The password reset form (frontend/src/pages/ResetPassword.jsx): the live
 * "passwords match" flag, the submit button's enabled state and the
 * submit-time validation order. Lengths count characters, as `length`
 * counts UTF-16 code units for text without astral characters.
 */
module ResetPasswordForm {
  import opened Opt

  datatype Form = Form(password: string, confirm: string)

  datatype Field = Password | Confirm

  const MinLength := 6
  const FillAll := "Please fill in all fields"
  const Mismatch := "Passwords do not match"
  const TooShort := "Password must be at least 6 characters long"

  /** The live flag: an empty confirmation is not flagged as a mismatch. */
  predicate Matches(f: Form) {
    f.password == f.confirm || f.confirm == ""
  }

  /** The page's form and flag. */
  datatype Page = Page(form: Form, matchFlag: bool, loading: bool)

  /** `handleChange`: store the edited field and recompute the flag from the new values. */
  function HandleChange(page: Page, field: Field, value: string): (r: Page)
    ensures r.matchFlag == Matches(r.form)
    ensures field == Password ==> r.form == page.form.(password := value)
    ensures field == Confirm ==> r.form == page.form.(confirm := value)
    ensures r.loading == page.loading
  {
    var form := if field == Password then page.form.(password := value) else page.form.(confirm := value);
    Page(form, Matches(form), page.loading)
  }

  /** Every sequence of edits from an empty form keeps the flag in step with the form. */
  function Edits(page: Page, edits: seq<(Field, string)>): (r: Page)
    requires page.matchFlag == Matches(page.form)
    ensures r.matchFlag == Matches(r.form)
    ensures r.loading == page.loading
    decreases |edits|
  {
    if edits == [] then page
    else Edits(HandleChange(page, edits[0].0, edits[0].1), edits[1..])
  }

  /** `handleSubmit`'s checks in order: both filled, equal, then long enough. */
  function Validate(f: Form): (r: Option<string>)
    ensures r.None? <==> f.password != "" && f.confirm != "" && f.password == f.confirm && |f.password| >= MinLength
    ensures f.password == "" || f.confirm == "" ==> r == Some(FillAll)
    ensures f.password != "" && f.confirm != "" && f.password != f.confirm ==> r == Some(Mismatch)
    ensures r == Some(TooShort) <==>
      f.password != "" && f.confirm != "" && f.password == f.confirm && |f.password| < MinLength
  {
    if f.password == "" || f.confirm == "" then Some(FillAll)
    else if f.password != f.confirm then Some(Mismatch)
    else if |f.password| < MinLength then Some(TooShort)
    else None
  }

  /** The submit button is disabled while loading, on a flagged mismatch, or with an empty field. */
  function SubmitDisabled(page: Page): (r: bool)
    ensures !r <==> !page.loading && page.matchFlag && page.form.password != "" && page.form.confirm != ""
  {
    page.loading || !page.matchFlag || page.form.password == "" || page.form.confirm == ""
  }

  /**
   * With the flag in step with the form, an enabled button can only meet the
   * length check: the first two checks never fire from a click.
   */
  lemma EnabledSubmitPassesFirstChecks(page: Page)
    requires page.matchFlag == Matches(page.form)
    requires !SubmitDisabled(page)
    ensures Validate(page.form) == None || Validate(page.form) == Some(TooShort)
  {
  }

  /** What the server answered. */
  datatype ResetResponse = Accepted(success: bool) | Rejected(message: Option<string>)

  const ResetFailed := "Failed to reset password. Please try again or request a new link."

  datatype Outcome = Outcome(error: string, succeeded: bool, sent: bool)

  /** `handleSubmit`: validation first; a request only when every check passes. */
  function HandleSubmit(f: Form, resp: ResetResponse): (r: Outcome)
    ensures r.sent <==> Validate(f).None?
    ensures !r.sent ==> r.error == Validate(f).value && !r.succeeded
    ensures r.succeeded <==> r.sent && resp == Accepted(true)
    ensures r.sent && resp.Rejected? ==>
      r.error == (if resp.message.Some? && resp.message.value != "" then resp.message.value else ResetFailed)
  {
    var v := Validate(f);
    if v.Some? then Outcome(v.value, false, false)
    else
      match resp
      case Accepted(success) => Outcome("", success, true)
      case Rejected(message) =>
        Outcome(if message.Some? && message.value != "" then message.value else ResetFailed, false, true)
  }
}

=== FILE: router.dfy ===
/**
 * The parking router's access policy (Backend/src/routes/parking.router.js):
 * which middleware each route runs before its handler, and what the chain
 * decides for a request.
 */
module ParkingRouter {
  import opened Opt
  import opened UserModel
  import opened Auth

  datatype Route =
    | Lots
    | ActiveSession
    | StartSession
    | Book
    | Bookings
    | CompleteSession
    | GuardEntry
    | GuardExit

  datatype Middleware = Authenticated | GuardOrAdmin

  /** The per-route middleware table, in the order the router runs it. */
  function Chain(route: Route): seq<Middleware> {
    match route
    case Lots => []
    case GuardEntry => [Authenticated, GuardOrAdmin]
    case GuardExit => [Authenticated, GuardOrAdmin]
    case _ => [Authenticated]
  }

  predicate AuthOnly(route: Route) {
    route in {ActiveSession, StartSession, Book, Bookings, CompleteSession}
  }

  predicate GuardRoute(route: Route) {
    route in {GuardEntry, GuardExit}
  }

  /** Whether the handler runs (with the user attached, if any) or a middleware replies. */
  datatype Access = Admitted(user: Option<User>) | Refused(code: int, message: string)

  /**
   * Run a middleware chain in order. A role gate reached with no user
   * attached throws reading `req.user.role`, which Express answers with 500.
   */
  function RunChain(chain: seq<Middleware>, attached: Option<User>, header: Option<string>,
                    verify: string -> Verified, users: seq<User>): (r: Access)
    ensures chain == [] ==> r == Admitted(attached)
    ensures r.Admitted? && Authenticated !in chain ==> r.user == attached
    ensures r.Admitted? && Authenticated in chain ==> r.user.Some? && r.user.value in users
    ensures r.Admitted? && |chain| > 0 && chain[|chain| - 1] == GuardOrAdmin ==>
              r.user.Some? && r.user.value.role != Driver
    decreases |chain|
  {
    if chain == [] then Admitted(attached)
    else
      match chain[0]
      case Authenticated =>
        var o := Authenticate(header, verify, users);
        if o.Deny? then Refused(o.code, o.message)
        else
          RunChain(chain[1..], Some(o.user), header, verify, users)
      case GuardOrAdmin =>
        if attached.None? then Refused(500, "Cannot read properties of undefined (reading 'role')")
        else
          var g := IsGuardOrAdmin(attached.value);
          if g.Forbid? then Refused(g.code, g.message)
          else RunChain(chain[1..], attached, header, verify, users)
  }

  /** What a request to `route` with this header gets past the middleware. */
  function Dispatch(route: Route, header: Option<string>, verify: string -> Verified,
                    users: seq<User>): Access
  {
    RunChain(Chain(route), None, header, verify, users)
  }

  /** `/lots` needs no authentication: every request reaches the handler. */
  lemma LotsIsPublic(header: Option<string>, verify: string -> Verified, users: seq<User>)
    ensures Dispatch(Lots, header, verify, users) == Admitted(None)
  {
  }

  /** The session and booking routes need authentication and nothing more. */
  lemma AuthOnlyRoutesNeedOnlyAuthentication(route: Route, header: Option<string>,
                                             verify: string -> Verified, users: seq<User>)
    requires AuthOnly(route)
    ensures var o := Authenticate(header, verify, users);
      && (o.Next? ==> Dispatch(route, header, verify, users) == Admitted(Some(o.user)))
      && (o.Deny? ==> Dispatch(route, header, verify, users) == Refused(o.code, o.message))
  {
    assert Chain(route) == [Authenticated];
    assert Chain(route)[1..] == [];
  }

  /** The guard routes admit exactly the authenticated guards and superadmins. */
  lemma GuardRoutesNeedGuardOrAdmin(route: Route, header: Option<string>,
                                    verify: string -> Verified, users: seq<User>)
    requires GuardRoute(route)
    ensures var o := Authenticate(header, verify, users);
      && (o.Deny? ==> Dispatch(route, header, verify, users) == Refused(o.code, o.message))
      && (o.Next? && o.user.role != Driver ==> Dispatch(route, header, verify, users) == Admitted(Some(o.user)))
      && (o.Next? && o.user.role == Driver ==>
            Dispatch(route, header, verify, users).Refused? && Dispatch(route, header, verify, users).code == 403)
  {
    var chain := Chain(route);
    assert chain == [Authenticated, GuardOrAdmin];
    assert chain[1..] == [GuardOrAdmin];
    assert chain[1..][1..] == [];
    var o := Authenticate(header, verify, users);
    if o.Next? {
      assert Dispatch(route, header, verify, users) == RunChain([GuardOrAdmin], Some(o.user), header, verify, users);
    }
  }

  /** A driver never reaches a guard handler, whatever the header says. */
  lemma DriverNeverAdmittedToGuardRoute(route: Route, header: Option<string>,
                                        verify: string -> Verified, users: seq<User>)
    requires GuardRoute(route)
    ensures var a := Dispatch(route, header, verify, users);
      a.Admitted? ==> a.user.Some? && a.user.value.role in {Guard, Superadmin}
  {
    var chain := Chain(route);
    assert chain[|chain| - 1] == GuardOrAdmin;
  }
}

=== FILE: scanner.dfy ===
/**
 * The guard's QR entry scanner (frontend/src/pages/GuardEntryScanner.jsx):
 * which user id a scanned text stands for, and what a scan does to the
 * page. `JSON.parse` and the network are parameters.
 */
module EntryScanner {
  import opened Opt

  /**
   * What `JSON.parse` made of the scanned text: it threw, it gave `null`
   * (reading `.userId` of which throws too), or it gave a value whose
   * `userId` property is a string or missing.
   */
  datatype Parsed = NotJson | JsonNull | JsonValue(userId: Option<string>)

  /** A truthy `userId` is taken; otherwise the raw scanned text. */
  function ExtractUserId(text: string, parsed: Parsed): (r: string)
    ensures parsed.JsonValue? && parsed.userId.Some? && parsed.userId.value != "" ==> r == parsed.userId.value
    ensures !(parsed.JsonValue? && parsed.userId.Some? && parsed.userId.value != "") ==> r == text
  {
    match parsed
    case JsonValue(Some(id)) => if id != "" then id else text
    case _ => text
  }

  datatype ScanResult = NoResult | Success | Failure

  /** The page state a scan touches. */
  datatype Page = Page(scannerRunning: bool, error: Option<string>, result: ScanResult)

  /** The body posted to the guard entry endpoint. */
  datatype EntryRequest = EntryRequest(userId: string, parkingLotId: string)

  /** The server's parsed answer, or a thrown fetch. */
  datatype EntryResponse = Answered(success: bool, message: Option<string>) | NetworkError

  const SelectLotFirst := "Please select a parking lot first"
  const EntryFailed := "Failed to process entry"
  const NetworkFailed := "Network error. Please try again."

  /** `selectedLot` as the page holds it: the empty string means none. */
  predicate LotSelected(selectedLot: string) {
    selectedLot != ""
  }

  /** The request `handleEntry` sends, if any. */
  function EntryRequestFor(userId: string, selectedLot: string): (r: Option<EntryRequest>)
    ensures r.None? <==> !LotSelected(selectedLot)
    ensures r.Some? ==> r.value.userId == userId && r.value.parkingLotId == selectedLot
  {
    if !LotSelected(selectedLot) then None else Some(EntryRequest(userId, selectedLot))
  }

  /** `handleEntry`: the page after the entry attempt for `userId`. */
  function HandleEntry(page: Page, userId: string, selectedLot: string, resp: EntryResponse): (r: Page)
    ensures r.scannerRunning == page.scannerRunning
    ensures !LotSelected(selectedLot) ==> r == page.(error := Some(SelectLotFirst))
    ensures LotSelected(selectedLot) ==>
      (r.result == Success <==> resp.Answered? && resp.success)
    ensures LotSelected(selectedLot) && r.result == Success ==> r.error.None?
    ensures LotSelected(selectedLot) && r.result != Success ==> r.result == Failure && r.error.Some?
    ensures LotSelected(selectedLot) && resp.Answered? && !resp.success ==>
      r.error == Some(if resp.message.Some? && resp.message.value != "" then resp.message.value else EntryFailed)
    ensures LotSelected(selectedLot) && resp.NetworkError? ==> r.error == Some(NetworkFailed)
  {
    if !LotSelected(selectedLot) then page.(error := Some(SelectLotFirst))
    else
      match resp
      case NetworkError => page.(error := Some(NetworkFailed), result := Failure)
      case Answered(success, message) =>
        if success then page.(error := None, result := Success)
        else
          var m := if message.Some? && message.value != "" then message.value else EntryFailed;
          page.(error := Some(m), result := Failure)
  }

  /**
   * `handleScanSuccess`: stop the camera, then process the user id the text
   * stands for. `stopOk` says whether the camera's `stop()` resolved; a
   * rejected stop is only logged, the scanner stays marked as running, and
   * the text is processed all the same. Returns the page and the request
   * that was sent, if any.
   */
  function HandleScan(page: Page, stopOk: bool, text: string, parsed: Parsed, selectedLot: string,
                      resp: EntryResponse): (r: (Page, Option<EntryRequest>))
    ensures r.0.scannerRunning == (page.scannerRunning && !stopOk)
    ensures r.1 == EntryRequestFor(ExtractUserId(text, parsed), selectedLot)
    ensures r.1.None? ==> r.0.error == Some(SelectLotFirst) && r.0.result == page.result
  {
    var stopped := if stopOk then page.(scannerRunning := false) else page;
    var userId := ExtractUserId(text, parsed);
    (HandleEntry(stopped, userId, selectedLot, resp), EntryRequestFor(userId, selectedLot))
  }

  /** A profile QR code (JSON carrying the user's id) checks in that user at the selected lot. */
  lemma ProfileQrChecksInOwner(page: Page, stopOk: bool, text: string, id: string, selectedLot: string, resp: EntryResponse)
    requires id != "" && LotSelected(selectedLot)
    ensures HandleScan(page, stopOk, text, JsonValue(Some(id)), selectedLot, resp).1 == Some(EntryRequest(id, selectedLot))
  {
  }

  /** Text that is not a JSON object with a user id is sent as the id itself. */
  lemma RawTextIsTheId(page: Page, stopOk: bool, text: string, parsed: Parsed, selectedLot: string, resp: EntryResponse)
    requires parsed.NotJson? || parsed.JsonNull? || parsed == JsonValue(None)
    requires LotSelected(selectedLot)
    ensures HandleScan(page, stopOk, text, parsed, selectedLot, resp).1 == Some(EntryRequest(text, selectedLot))
  {
  }
}

=== FILE: seed.dfy ===
/**
 * The curated valley seed (Backend/src/utils/seedValleyParking.js): a fixed
 * list of lots, each given the status its counters imply, turned into one
 * upsert per lot keyed by name. Connecting to the database and the bulk
 * write itself are not modelled; applying one upsert to a collection is.
 */
module ValleySeed {
  import opened Opt
  import L = LotModel

  /** A curated entry as written in the list, before a status is derived. */
  datatype CuratedLot = Curated(
    name: string,
    lat: real,
    lon: real,
    pricePerHour: int,
    totalSpots: int,
    occupiedSpots: int,
    kind: L.LotType)

  /** A curated entry spread into a new object together with its `status`. */
  datatype SeededLot = Seeded(
    name: string,
    lat: real,
    lon: real,
    pricePerHour: int,
    totalSpots: int,
    occupiedSpots: int,
    kind: L.LotType,
    status: L.LotStatus)

  /** `{...lot, status}` with status full exactly when the lot has no free spot. */
  function WithStatus(c: CuratedLot): (r: SeededLot)
    ensures r.status == L.Full <==> c.occupiedSpots >= c.totalSpots
    ensures r.status == L.Available <==> c.occupiedSpots < c.totalSpots
    ensures r.name == c.name && r.lat == c.lat && r.lon == c.lon && r.pricePerHour == c.pricePerHour
    ensures r.totalSpots == c.totalSpots && r.occupiedSpots == c.occupiedSpots && r.kind == c.kind
  {
    Seeded(c.name, c.lat, c.lon, c.pricePerHour, c.totalSpots, c.occupiedSpots, c.kind,
           if c.occupiedSpots >= c.totalSpots then L.Full else L.Available)
  }

  /** The status derivation of the seed agrees with the lot model's pre-save hook. */
  lemma WithStatusMatchesPreSave(c: CuratedLot, id: string, st: L.LotStatus)
    ensures WithStatus(c).status ==
      L.PreSave(L.Lot(id, c.name, c.lat, c.lon, c.pricePerHour, c.totalSpots, c.occupiedSpots, c.kind, st)).status
  {
  }

  /** `curatedLots.map(...)`: same length and order, each entry with its derived status. */
  function DeriveStatuses(lots: seq<CuratedLot>): (r: seq<SeededLot>)
    ensures |r| == |lots|
    ensures forall i :: 0 <= i < |lots| ==> r[i] == WithStatus(lots[i])
  {
    seq(|lots|, i requires 0 <= i < |lots| => WithStatus(lots[i]))
  }

  /** `fetchValleyParkingData`. */
  function FetchValleyParkingData(): (r: seq<SeededLot>)
    ensures |r| == |CuratedLots|
    ensures forall i :: 0 <= i < |r| ==> r[i] == WithStatus(CuratedLots[i])
  {
    DeriveStatuses(CuratedLots)
  }

  predicate BelowCapacity(c: CuratedLot) {
    c.occupiedSpots < c.totalSpots
  }

  /** Every curated entry has a free spot, so every seeded lot is available. */
  lemma SeededLotsAllAvailable()
    ensures forall i :: 0 <= i < |FetchValleyParkingData()| ==> FetchValleyParkingData()[i].status == L.Available
  {
    KathmanduBelowCapacity();
    LalitpurBelowCapacity();
    BhaktapurBelowCapacity();
    assert forall i :: 0 <= i < |CuratedLots| ==> CuratedLots[i] in CuratedLots;
  }

  lemma KathmanduBelowCapacity()
    ensures forall c :: c in KathmanduLots ==> BelowCapacity(c)
  {
  }

  lemma LalitpurBelowCapacity()
    ensures forall c :: c in LalitpurLots ==> BelowCapacity(c)
  {
  }

  lemma BhaktapurBelowCapacity()
    ensures forall c :: c in BhaktapurLots ==> BelowCapacity(c)
  {
  }

  /** `{updateOne: {filter: {name}, update: {$set: lot}, upsert: true}}`. */
  datatype UpsertOp = UpdateOne(filterName: string, update: SeededLot, upsert: bool)

  /** One upsert per seeded lot, in order, keyed by the lot's name. */
  function UpsertOps(lots: seq<SeededLot>): (r: seq<UpsertOp>)
    ensures |r| == |lots|
    ensures forall i :: 0 <= i < |lots| ==>
      r[i].filterName == lots[i].name && r[i].update == lots[i] && r[i].upsert
  {
    seq(|lots|, i requires 0 <= i < |lots| => UpdateOne(lots[i].name, lots[i], true))
  }

  predicate NameTaken(lots: seq<L.Lot>, name: string) {
    exists k :: 0 <= k < |lots| && lots[k].name == name
  }

  /** The index of the first lot with that name. */
  function FirstNamed(lots: seq<L.Lot>, name: string): (k: nat)
    requires NameTaken(lots, name)
    ensures k < |lots| && lots[k].name == name
    ensures forall j :: 0 <= j < k ==> lots[j].name != name
  {
    if lots[0].name == name then 0
    else
      assert NameTaken(lots[1..], name) by {
        var k :| 0 <= k < |lots| && lots[k].name == name;
        assert lots[1..][k - 1].name == name;
      }
      1 + FirstNamed(lots[1..], name)
  }

  /** `$set` every field of a seeded lot onto a stored one; the id stays. */
  function SetFields(lot: L.Lot, s: SeededLot): L.Lot {
    L.Lot(lot.id, s.name, s.lat, s.lon, s.pricePerHour, s.totalSpots, s.occupiedSpots, s.kind, s.status)
  }

  /** Fields of a stored lot equal to those the seeded lot carries. */
  predicate Carries(lot: L.Lot, s: SeededLot) {
    lot == SetFields(lot, s)
  }

  /**
   * One upsert: overwrite the first lot with the filtered name, or insert
   * a new lot with id `freshId` when no lot has that name.
   */
  function ApplyUpsert(lots: seq<L.Lot>, op: UpsertOp, freshId: string): (r: seq<L.Lot>)
    requires op.upsert && op.filterName == op.update.name
    ensures NameTaken(lots, op.filterName) ==>
      var k := FirstNamed(lots, op.filterName);
      && |r| == |lots|
      && r[k] == SetFields(lots[k], op.update) && r[k].id == lots[k].id
      && (forall j :: 0 <= j < |lots| && j != k ==> r[j] == lots[j])
    ensures !NameTaken(lots, op.filterName) ==>
      && |r| == |lots| + 1 && r[..|lots|] == lots
      && Carries(r[|lots|], op.update) && r[|lots|].id == freshId
    ensures NameTaken(r, op.filterName)
    ensures Carries(r[FirstNamed(r, op.filterName)], op.update)
  {
    if NameTaken(lots, op.filterName) then
      var k := FirstNamed(lots, op.filterName);
      var r := lots[k := SetFields(lots[k], op.update)];
      assert r[k].name == op.filterName;
      assert forall j :: 0 <= j < k ==> r[j] == lots[j];
      r
    else
      var inserted := SetFields(L.Lot(freshId, "", 0.0, 0.0, 0, 0, 0, L.Both, L.Available), op.update);
      var r := lots + [inserted];
      assert r[|lots|].name == op.filterName;
      r
  }

  /** Upserting the same lot twice leaves the collection as upserting it once. */
  lemma ApplyUpsertIdempotent(lots: seq<L.Lot>, op: UpsertOp, id1: string, id2: string)
    requires op.upsert && op.filterName == op.update.name
    ensures var once := ApplyUpsert(lots, op, id1);
      ApplyUpsert(once, op, id2) == once
  {
    var once := ApplyUpsert(lots, op, id1);
    var k := FirstNamed(once, op.filterName);
    assert once[k := SetFields(once[k], op.update)] == once;
  }

  /** The curated list, in source order: Kathmandu, then Lalitpur, then Bhaktapur. */
  const CuratedLots: seq<CuratedLot> := KathmanduLots + LalitpurLots + BhaktapurLots

  const KathmanduLots: seq<CuratedLot> := [
      Curated("Civil Mall Parking", 27.7008, 85.3121, 50, 120, 54, L.Both),
      Curated("Dharahara Parking Plaza", 27.7005, 85.312, 45, 90, 38, L.Both),
      Curated("Basantapur Multi-level Parking", 27.7031, 85.3117, 40, 160, 70, L.Both),
      Curated("Durbar Marg Parking Zone", 27.7112, 85.3168, 80, 130, 94, L.Car),
      Curated("Bhatbhateni Naxal Parking", 27.7155, 85.3301, 30, 75, 28, L.Both),
      Curated("City Center Parking (Kamaladi)", 27.7092, 85.3233, 55, 100, 61, L.Both),
      Curated("Pashupati Area Parking", 27.7104, 85.3486, 35, 110, 37, L.Both),
      Curated("TU Teaching Hospital Parking", 27.7302, 85.3305, 25, 140, 46, L.Both),
      Curated("Sundhara Parking Area", 27.7019, 85.3136, 40, 95, 42, L.Both),
      Curated("Narayanhiti North Gate Parking", 27.7139, 85.3217, 45, 65, 23, L.Car),
      Curated("Thamel Chhaya Center Parking", 27.7175, 85.3115, 60, 150, 78, L.Both),
      Curated("Kalanki Parking Hub", 27.6936, 85.2814, 35, 85, 31, L.Both),
      Curated("New Baneshwor Parking Complex", 27.6915, 85.342, 45, 125, 56, L.Both),
      Curated("Koteshwor Ringroad Parking", 27.6796, 85.3498, 35, 110, 49, L.Both),
      Curated("Balaju Bypass Parking Area", 27.7342, 85.3001, 30, 90, 34, L.Both),
      Curated("Maharajgunj Parking Point", 27.7387, 85.3317, 40, 80, 29, L.Both),
      Curated("Kapan Budhanilkantha Parking", 27.7422, 85.3629, 25, 70, 21, L.Both)
    ]

  const LalitpurLots: seq<CuratedLot> := [
      Curated("Labim Mall Parking", 27.6771, 85.3171, 60, 180, 73, L.Both),
      Curated("Patan Durbar Square Parking", 27.6735, 85.3252, 35, 70, 27, L.Both),
      Curated("Jawalakhel Parking Zone", 27.6728, 85.3118, 40, 95, 34, L.Both),
      Curated("Jhamsikhel Parking Area", 27.6795, 85.3055, 45, 80, 26, L.Both),
      Curated("Pulchowk Engineering Campus Parking", 27.6815, 85.3185, 20, 100, 39, L.Both),
      Curated("Ekantakuna Parking Point", 27.6655, 85.3036, 30, 90, 29, L.Both),
      Curated("Kumaripati Central Parking", 27.6717, 85.3156, 35, 85, 30, L.Both),
      Curated("Lagankhel Bus Park Parking", 27.6668, 85.3216, 25, 120, 52, L.Both),
      Curated("Satdobato Ringroad Parking", 27.6572, 85.3249, 30, 110, 47, L.Both),
      Curated("Imadol Parking Area", 27.6552, 85.3374, 25, 75, 22, L.Both),
      Curated("Gwarko Junction Parking", 27.6678, 85.3319, 30, 105, 43, L.Both),
      Curated("Kupondole Bridge Parking", 27.6842, 85.3189, 40, 85, 32, L.Both),
      Curated("Mahalaxmisthan Parking Lot", 27.6674, 85.3186, 30, 80, 26, L.Both),
      Curated("Bhaisepati Parking Zone", 27.6489, 85.3078, 25, 95, 30, L.Both),
      Curated("Chakupat Riverside Parking", 27.6749, 85.3148, 35, 68, 19, L.Both)
    ]

  const BhaktapurLots: seq<CuratedLot> := [
      Curated("Bhaktapur Durbar Square Entrance Parking", 27.6715, 85.4285, 30, 95, 40, L.Both),
      Curated("Siddhapokhari Parking Zone", 27.6738, 85.4205, 25, 70, 24, L.Both),
      Curated("Chyasingmandap Parking", 27.6722, 85.4325, 25, 65, 19, L.Both),
      Curated("Jagati Parking Point", 27.6625, 85.4415, 35, 90, 33, L.Both),
      Curated("Kamalbinayak Parking Area", 27.6727, 85.4387, 30, 80, 28, L.Both),
      Curated("Suryabinayak Temple Parking", 27.6597, 85.4419, 30, 100, 36, L.Both),
      Curated("Thimi Balkumari Parking", 27.6781, 85.3803, 25, 85, 31, L.Both),
      Curated("Madhyapur Thimi Municipality Parking", 27.6838, 85.3881, 20, 70, 21, L.Both),
      Curated("Radhe Radhe Junction Parking", 27.6721, 85.4048, 20, 90, 35, L.Both),
      Curated("Sallaghari Sports Ground Parking", 27.6799, 85.4172, 25, 120, 44, L.Both),
      Curated("Dudhpati Bhaktapur Parking", 27.6757, 85.4311, 25, 88, 32, L.Both),
      Curated("Taumadhi Square Parking", 27.6729, 85.4297, 30, 72, 24, L.Both),
      Curated("Byasi Parking Area", 27.6711, 85.4338, 20, 64, 18, L.Both),
      Curated("Nalinchowk Highway Parking", 27.6691, 85.4554, 25, 95, 37, L.Both),
      Curated("Changunarayan Entry Parking", 27.7196, 85.4296, 20, 70, 22, L.Both)
    ]
}

=== FILE: session.dfy ===
/**
 * The parking-session record (Backend/src/models/ParkingSession.model.js):
 * required references, the vehicle-type and status enumerations, and the
 * defaults applied when a session is created. The creation instant is
 * passed in as `now` (milliseconds since the epoch).
 */
module SessionModel {
  import opened Opt

  type Id = string

  datatype VehicleType = Car | Bike
  /** Only two states exist: a session is either running or finished. */
  datatype SessionStatus = Active | Completed

  datatype Session = Session(
    id: Id,
    user: Id,
    parkingLot: Id,
    vehicleType: VehicleType,
    startTime: int,
    endTime: Option<int>,
    totalAmount: int,
    status: SessionStatus)

  function VehicleTypeName(v: VehicleType): string {
    match v
    case Car => "car"
    case Bike => "bike"
  }

  /** The `vehicleType` enum check: only "car" and "bike" are accepted. */
  function ParseVehicleType(s: string): (r: Option<VehicleType>)
    ensures r.Some? <==> s in {"car", "bike"}
    ensures r.Some? ==> VehicleTypeName(r.value) == s
  {
    if s == "car" then Some(Car) else if s == "bike" then Some(Bike) else None
  }

  function SessionStatusName(st: SessionStatus): string {
    match st
    case Active => "active"
    case Completed => "completed"
  }

  /** The `status` enum check: only "active" and "completed" are accepted. */
  function ParseSessionStatus(s: string): (r: Option<SessionStatus>)
    ensures r.Some? <==> s in {"active", "completed"}
    ensures r.Some? ==> SessionStatusName(r.value) == s
  {
    if s == "active" then Some(Active) else if s == "completed" then Some(Completed) else None
  }

  datatype SessionError = MissingField(field: string) | BadEnum(field: string)

  /**
   * `ParkingSession.create({user, parkingLot, vehicleType})`: the two
   * references and the vehicle type are required, the vehicle type must be
   * in its enum, and every other field takes its default.
   */
  function CreateSession(id: Id, user: Option<Id>, parkingLot: Option<Id>,
                         vehicleType: Option<string>, now: int): (r: Result<Session, SessionError>)
    ensures r.Ok? <==>
      user.Some? && parkingLot.Some? && vehicleType.Some? && ParseVehicleType(vehicleType.value).Some?
    ensures r.Ok? ==>
      && r.value.id == id
      && r.value.user == user.value
      && r.value.parkingLot == parkingLot.value
      && VehicleTypeName(r.value.vehicleType) == vehicleType.value
      && r.value.startTime == now
      && r.value.endTime == None
      && r.value.totalAmount == 0
      && r.value.status == Active
  {
    if user.None? then Err(MissingField("user"))
    else if parkingLot.None? then Err(MissingField("parkingLot"))
    else if vehicleType.None? then Err(MissingField("vehicleType"))
    else
      var v := ParseVehicleType(vehicleType.value);
      if v.None? then Err(BadEnum("vehicleType"))
      else Ok(Session(id, user.value, parkingLot.value, v.value, now, None, 0, Active))
  }
}

=== FILE: text.dfy ===
/**
 * Optional values (a missing field, an absent header, a lookup that finds
 * nothing) and results that are either a value or an error.
 */
module Opt {
  datatype Option<+T> = None | Some(value: T) {
    function GetOr(default: T): T {
      match this
      case Some(v) => v
      case None => default
    }
  }

  datatype Result<+T, +E> = Ok(value: T) | Err(error: E)
}

/**
 * String helpers shared by the server and the client code: ASCII case
 * mapping, whitespace, prefixes and substrings, splitting on a separator,
 * and decimal rendering of integers.
 */
module Text {

  // ---------------------------------------------------------------------
  // Characters
  // ---------------------------------------------------------------------

  /** The ASCII whitespace characters matched by `\s` and removed by `trim`. */
  predicate IsWhitespace(c: char) {
    c == ' ' || c == '\t' || c == '\n' || c == '\r' || c == '\U{B}' || c == '\U{C}'
  }

  predicate IsUpper(c: char) { 'A' <= c <= 'Z' }
  predicate IsLower(c: char) { 'a' <= c <= 'z' }
  predicate IsDigit(c: char) { '0' <= c <= '9' }

  function LowerChar(c: char): (r: char)
    ensures IsUpper(c) ==> IsLower(r)
    ensures !IsUpper(c) ==> r == c
  {
    if IsUpper(c) then (c as int + 32) as char else c
  }

  function UpperChar(c: char): (r: char)
    ensures IsLower(c) ==> IsUpper(r)
    ensures !IsLower(c) ==> r == c
  {
    if IsLower(c) then (c as int - 32) as char else c
  }

  /** `toLowerCase`, restricted to ASCII letters. */
  function ToLower(s: string): (r: string)
    ensures |r| == |s|
    ensures forall i :: 0 <= i < |s| ==> r[i] == LowerChar(s[i])
  {
    seq(|s|, i requires 0 <= i < |s| => LowerChar(s[i]))
  }

  /** `toUpperCase`, restricted to ASCII letters. */
  function ToUpper(s: string): (r: string)
    ensures |r| == |s|
    ensures forall i :: 0 <= i < |s| ==> r[i] == UpperChar(s[i])
  {
    seq(|s|, i requires 0 <= i < |s| => UpperChar(s[i]))
  }

  // ---------------------------------------------------------------------
  // Whitespace
  // ---------------------------------------------------------------------

  /** `s.trim()` is the empty string. */
  predicate IsBlank(s: string) {
    forall i :: 0 <= i < |s| ==> IsWhitespace(s[i])
  }

  predicate NoWhitespace(s: string) {
    forall i :: 0 <= i < |s| ==> !IsWhitespace(s[i])
  }

  /** `s.trim()`: leading and trailing whitespace removed. */
  function Trim(s: string): (r: string)
    ensures r == "" || (!IsWhitespace(r[0]) && !IsWhitespace(r[|r| - 1]))
    ensures IsBlank(s) <==> r == ""
    ensures NoWhitespace(s) ==> r == s
    ensures Contains(s, r)
  {
    var t := TrimStart(s);
    var r := TrimEnd(t);
    SliceOfSuffix(s, |s| - |t|, t, r);
    r
  }

  /**
   * `trim` keeps the slice of the input that starts where the leading
   * whitespace ends, and everything it drops on either side is whitespace.
   */
  lemma {:induction false} TrimDropsOnlyWhitespace(s: string)
    ensures var i := |s| - |TrimStart(s)|; var r := Trim(s);
      && OccursAt(s, r, i)
      && (forall k :: 0 <= k < i ==> IsWhitespace(s[k]))
      && (forall k :: i + |r| <= k < |s| ==> IsWhitespace(s[k]))
  {
    var t := TrimStart(s);
    var r := TrimEnd(t);
    var i := |s| - |t|;
    assert Trim(s) == r;
    SliceOfSuffix(s, i, t, r);
    TrimStartDrops(s);
    TrimEndDrops(t);
    TrailingOfSuffix(s, i, t, |r|);
  }

  /** A prefix of the suffix from `i` is the slice starting at `i`. */
  lemma {:induction false} SliceOfSuffix(s: string, i: nat, t: string, r: string)
    requires i <= |s| && t == s[i..] && |r| <= |t| && r == t[..|r|]
    ensures i + |r| <= |s| && s[i..i + |r|] == r && OccursAt(s, r, i)
  {
    assert s[i..i + |r|] == r;
  }

  /** Whitespace at the end of the suffix from `i` is whitespace at the end of `s`. */
  lemma {:induction false} TrailingOfSuffix(s: string, i: nat, t: string, n: nat)
    requires i <= |s| && t == s[i..] && n <= |t|
    requires forall k :: n <= k < |t| ==> IsWhitespace(t[k])
    ensures forall k :: i + n <= k < |s| ==> IsWhitespace(s[k])
  {
    forall k | i + n <= k < |s|
      ensures IsWhitespace(s[k])
    {
      assert s[k] == t[k - i];
    }
  }

  /** What `TrimStart` drops is whitespace. */
  lemma {:induction false} TrimStartDrops(s: string)
    ensures forall k :: 0 <= k < |s| - |TrimStart(s)| ==> IsWhitespace(s[k])
    decreases |s|
  {
    if |s| > 0 && IsWhitespace(s[0]) {
      TrimStartDrops(s[1..]);
      forall k | 1 <= k < |s| - |TrimStart(s)|
        ensures IsWhitespace(s[k])
      {
        assert s[k] == s[1..][k - 1];
      }
    }
  }

  /** What `TrimEnd` drops is whitespace. */
  lemma {:induction false} TrimEndDrops(s: string)
    ensures forall k :: |TrimEnd(s)| <= k < |s| ==> IsWhitespace(s[k])
    decreases |s|
  {
    if |s| > 0 && IsWhitespace(s[|s| - 1]) {
      TrimEndDrops(s[..|s| - 1]);
      forall k | |TrimEnd(s)| <= k < |s| - 1
        ensures IsWhitespace(s[k])
      {
        assert s[k] == s[..|s| - 1][k];
      }
    }
  }

  function TrimStart(s: string): (r: string)
    ensures r == "" || !IsWhitespace(r[0])
    ensures IsBlank(s) <==> r == ""
    ensures |r| <= |s| && r == s[|s| - |r|..]
    decreases |s|
  {
    if |s| > 0 && IsWhitespace(s[0]) then TrimStart(s[1..]) else s
  }

  function TrimEnd(s: string): (r: string)
    ensures r == "" || !IsWhitespace(r[|r| - 1])
    ensures IsBlank(s) <==> r == ""
    ensures |r| <= |s| && r == s[..|r|]
    decreases |s|
  {
    if |s| > 0 && IsWhitespace(s[|s| - 1]) then TrimEnd(s[..|s| - 1]) else s
  }

  /** `s.replace(/\s+/g, "")`: every whitespace character removed. */
  function StripWhitespace(s: string): (r: string)
    ensures NoWhitespace(r)
    ensures |r| <= |s|
    ensures NoWhitespace(s) ==> r == s
    ensures IsBlank(s) <==> r == ""
  {
    if |s| == 0 then ""
    else if IsWhitespace(s[0]) then StripWhitespace(s[1..])
    else [s[0]] + StripWhitespace(s[1..])
  }

  /** Stripping twice is stripping once. */
  lemma StripIdempotent(s: string)
    ensures StripWhitespace(StripWhitespace(s)) == StripWhitespace(s)
  {
  }

  /** Stripping keeps exactly the non-whitespace characters, in order. */
  lemma {:induction false} StripKeepsOthers(s: string)
    ensures StripWhitespace(s) == FilterNonWhitespace(s)
  {
    if |s| > 0 {
      StripKeepsOthers(s[1..]);
      assert s == [s[0]] + s[1..];
      FilterNonWhitespaceCons(s[0], s[1..]);
    }
  }

  /** Reference definition: filter from the right end. */
  function FilterNonWhitespace(s: string): string {
    if |s| == 0 then ""
    else if IsWhitespace(s[|s| - 1]) then FilterNonWhitespace(s[..|s| - 1])
    else FilterNonWhitespace(s[..|s| - 1]) + [s[|s| - 1]]
  }

  lemma {:induction false} FilterNonWhitespaceCons(c: char, s: string)
    ensures FilterNonWhitespace([c] + s) ==
            (if IsWhitespace(c) then "" else [c]) + FilterNonWhitespace(s)
    decreases |s|
  {
    if |s| > 0 {
      var t := [c] + s;
      assert t[..|t| - 1] == [c] + s[..|s| - 1];
      FilterNonWhitespaceCons(c, s[..|s| - 1]);
    } else {
      assert ([c] + s)[..0] == "";
    }
  }

  // ---------------------------------------------------------------------
  // Prefixes and substrings
  // ---------------------------------------------------------------------

  /** `s.startsWith(p)`. */
  predicate StartsWith(s: string, p: string) {
    |p| <= |s| && s[..|p|] == p
  }

  /** `s.includes(sub)`. */
  predicate Contains(s: string, sub: string) {
    exists i | 0 <= i <= |s| - |sub| :: OccursAt(s, sub, i)
  }

  /** `sub` occurs in `s` starting at index `i`. */
  predicate OccursAt(s: string, sub: string, i: int) {
    0 <= i <= |s| - |sub| && s[i..i + |sub|] == sub
  }

  // ---------------------------------------------------------------------
  // Splitting on a separator (`s.split(sep)` for a one-character sep)
  // ---------------------------------------------------------------------

  function Split(s: string, sep: char): (parts: seq<string>)
    ensures |parts| >= 1
    ensures forall k :: 0 <= k < |parts| ==> sep !in parts[k]
    decreases |s|
  {
    if |s| == 0 then [""]
    else
      var rest := Split(s[1..], sep);
      if s[0] == sep then [""] + rest
      else [[s[0]] + rest[0]] + rest[1..]
  }

  /** Inverse of `Split`: `parts.join(sep)`. */
  function Join(parts: seq<string>, sep: char): string
    requires |parts| >= 1
  {
    if |parts| == 1 then parts[0] else parts[0] + [sep] + Join(parts[1..], sep)
  }

  /** Joining the fields of a split gives the original string back. */
  lemma {:induction false} JoinSplit(s: string, sep: char)
    ensures Join(Split(s, sep), sep) == s
    decreases |s|
  {
    if |s| > 0 {
      JoinSplit(s[1..], sep);
      var rest := Split(s[1..], sep);
      if s[0] == sep {
        assert Split(s, sep)[1..] == rest;
      } else {
        var parts := Split(s, sep);
        assert parts[1..] == rest[1..];
        if |rest| == 1 {
          assert Join(parts, sep) == [s[0]] + rest[0];
        } else {
          assert Join(rest, sep) == rest[0] + [sep] + Join(rest[1..], sep);
          assert Join(parts, sep) == ([s[0]] + rest[0]) + [sep] + Join(rest[1..], sep);
        }
      }
    }
  }

  /** A string without the separator is a single field. */
  lemma {:induction false} SplitNoSep(a: string, sep: char)
    requires sep !in a
    ensures Split(a, sep) == [a]
    decreases |a|
  {
    if |a| > 0 {
      SplitNoSep(a[1..], sep);
      assert [a[0]] + a[1..] == a;
    }
  }

  /** A separator-free head followed by the separator is the first field. */
  lemma {:induction false} SplitHead(a: string, sep: char, b: string)
    requires sep !in a
    ensures Split(a + [sep] + b, sep) == [a] + Split(b, sep)
    decreases |a|
  {
    var s := a + [sep] + b;
    if |a| == 0 {
      assert s[1..] == b;
    } else {
      assert s[1..] == a[1..] + [sep] + b;
      SplitHead(a[1..], sep, b);
      assert [a[0]] + a[1..] == a;
    }
  }

  /** The longest prefix of `s` without `sep`. */
  function TakeUntil(s: string, sep: char): (r: string)
    ensures sep !in r
    ensures StartsWith(s, r)
    ensures |r| < |s| ==> s[|r|] == sep
    decreases |s|
  {
    if |s| == 0 || s[0] == sep then "" else [s[0]] + TakeUntil(s[1..], sep)
  }

  /** The first field of a split is the longest separator-free prefix. */
  lemma {:induction false} SplitFirstField(s: string, sep: char)
    ensures Split(s, sep)[0] == TakeUntil(s, sep)
    decreases |s|
  {
    if |s| > 0 && s[0] != sep {
      SplitFirstField(s[1..], sep);
    }
  }

  // ---------------------------------------------------------------------
  // Decimal rendering (`n.toString()`) and its inverse
  // ---------------------------------------------------------------------

  function DigitChar(d: nat): (c: char)
    requires d < 10
    ensures IsDigit(c)
  {
    ('0' as int + d) as char
  }

  function DigitValue(c: char): (d: nat)
    requires IsDigit(c)
    ensures d < 10
  {
    c as int - '0' as int
  }

  predicate AllDigits(s: string) {
    forall i :: 0 <= i < |s| ==> IsDigit(s[i])
  }

  /** Decimal digits of a natural number, most significant first, no leading zero. */
  function NatToString(n: nat): (s: string)
    ensures |s| >= 1
    ensures AllDigits(s)
    ensures s[0] == '0' ==> n == 0
    ensures n < 10 <==> |s| == 1
    decreases n
  {
    if n < 10 then [DigitChar(n)] else NatToString(n / 10) + [DigitChar(n % 10)]
  }

  /** `i.toString()` for any integer: a minus sign before the magnitude. */
  function IntToString(i: int): (s: string)
    ensures |s| >= 1
    ensures i >= 0 ==> s == NatToString(i)
    ensures i < 0 ==> s == "-" + NatToString(-i)
  {
    if i >= 0 then NatToString(i) else "-" + NatToString(-i)
  }

  /** Value of a digit string (the empty string reads as 0). */
  function ParseDigits(s: string): nat
    requires AllDigits(s)
  {
    if |s| == 0 then 0 else ParseDigits(s[..|s| - 1]) * 10 + DigitValue(s[|s| - 1])
  }

  /** Rendering then reading a natural number gives it back. */
  lemma {:induction false} ParseNatToString(n: nat)
    ensures ParseDigits(NatToString(n)) == n
    decreases n
  {
    if n >= 10 {
      ParseNatToString(n / 10);
      var s := NatToString(n);
      assert s[..|s| - 1] == NatToString(n / 10);
    }
  }

  /** Leading zeros do not change the value of a digit string. */
  lemma {:induction false} ParseLeadingZero(s: string)
    requires AllDigits(s)
    ensures ParseDigits("0" + s) == ParseDigits(s)
    decreases |s|
  {
    if |s| > 0 {
      var t := "0" + s;
      assert t[..|t| - 1] == "0" + s[..|s| - 1];
      ParseLeadingZero(s[..|s| - 1]);
    }
  }

  /** `s.padStart(2, '0')`: left-pad with zeros to length two, never truncate. */
  function PadStart2(s: string): (r: string)
    ensures |r| == if |s| >= 2 then |s| else 2
    ensures r[|r| - |s|..] == s
    ensures forall i :: 0 <= i < |r| - |s| ==> r[i] == '0'
  {
    if |s| >= 2 then s else if |s| == 1 then "0" + s else "00"
  }

  /** A zero-padded decimal still denotes the number it renders. */
  lemma PadStart2Value(n: nat)
    ensures AllDigits(PadStart2(NatToString(n)))
    ensures ParseDigits(PadStart2(NatToString(n))) == n
  {
    ParseNatToString(n);
    var s := NatToString(n);
    if |s| < 2 {
      ParseLeadingZero(s);
    }
  }
}

=== FILE: user.dfy ===
/**
 * The user record (Backend/src/models/User.model.js): the role enumeration
 * and its default, the name and photo defaults, and the unique indexes on
 * `username` and `email`. Users live in a collection kept in insertion
 * order.
 */
module UserModel {
  import opened Opt

  type Id = string

  datatype Role = Driver | Guard | Superadmin

  datatype User = User(
    id: Id,
    firstName: string,
    lastName: string,
    username: string,
    email: string,
    password: string,
    role: Role,
    photo: string)

  function RoleName(r: Role): string {
    match r
    case Driver => "driver"
    case Guard => "guard"
    case Superadmin => "superadmin"
  }

  /** The `role` enum check: only "driver", "guard" and "superadmin" are accepted. */
  function ParseRole(s: string): (r: Option<Role>)
    ensures r.Some? <==> s in {"driver", "guard", "superadmin"}
    ensures r.Some? ==> RoleName(r.value) == s
  {
    if s == "driver" then Some(Driver)
    else if s == "guard" then Some(Guard)
    else if s == "superadmin" then Some(Superadmin)
    else None
  }

  /** Every role is accepted back from its own name, and names are distinct. */
  lemma RoleNamesRoundTrip(r: Role, q: Role)
    ensures ParseRole(RoleName(r)) == Some(r)
    ensures RoleName(r) == RoleName(q) ==> r == q
  {
  }

  /** The fields a caller may supply when registering; absent ones are `None`. */
  datatype UserInput = UserInput(
    firstName: Option<string>,
    lastName: Option<string>,
    username: Option<string>,
    email: Option<string>,
    password: Option<string>,
    role: Option<string>,
    photo: Option<string>)

  datatype UserError =
    | MissingField(field: string)
    | BadEnum(field: string)
    | DuplicateKey(field: string)

  /** A required string is missing when absent or empty. */
  predicate Present(s: Option<string>) {
    s.Some? && s.value != ""
  }

  /**
   * Schema validation and defaults: `firstName` defaults to "User",
   * `lastName` to "Name", `role` to driver and `photo` to "". A supplied
   * empty name still fails the `required` check.
   */
  function NewUser(id: Id, input: UserInput): (r: Result<User, UserError>)
    ensures r.Ok? <==>
      && (input.firstName.None? || input.firstName.value != "")
      && (input.lastName.None? || input.lastName.value != "")
      && Present(input.username) && Present(input.email) && Present(input.password)
      && (input.role.None? || ParseRole(input.role.value).Some?)
    ensures r.Ok? ==>
      && r.value.id == id
      && r.value.firstName == input.firstName.GetOr("User")
      && r.value.lastName == input.lastName.GetOr("Name")
      && r.value.username == input.username.value
      && r.value.email == input.email.value
      && (input.role.None? ==> r.value.role == Driver)
      && (input.role.Some? ==> RoleName(r.value.role) == input.role.value)
      && r.value.photo == input.photo.GetOr("")
  {
    var first := input.firstName.GetOr("User");
    var last := input.lastName.GetOr("Name");
    var role := if input.role.None? then Some(Driver) else ParseRole(input.role.value);
    if first == "" then Err(MissingField("firstName"))
    else if last == "" then Err(MissingField("lastName"))
    else if !Present(input.username) then Err(MissingField("username"))
    else if !Present(input.email) then Err(MissingField("email"))
    else if !Present(input.password) then Err(MissingField("password"))
    else if role.None? then Err(BadEnum("role"))
    else Ok(User(id, first, last, input.username.value, input.email.value,
                 input.password.value, role.value, input.photo.GetOr("")))
  }

  /** The unique indexes: no two users share an id, a username or an email. */
  predicate UniqueKeys(users: seq<User>) {
    forall i, j :: 0 <= i < j < |users| ==>
      && users[i].id != users[j].id
      && users[i].username != users[j].username
      && users[i].email != users[j].email
  }

  predicate UsernameTaken(users: seq<User>, name: string) {
    exists k :: 0 <= k < |users| && users[k].username == name
  }

  predicate EmailTaken(users: seq<User>, email: string) {
    exists k :: 0 <= k < |users| && users[k].email == email
  }

  predicate IdTaken(users: seq<User>, id: Id) {
    exists k :: 0 <= k < |users| && users[k].id == id
  }

  /** Inserting a document: a duplicate key on any unique index rejects it. */
  function InsertUser(users: seq<User>, u: User): (r: Result<seq<User>, UserError>)
    ensures UsernameTaken(users, u.username) ==> r.Err?
    ensures EmailTaken(users, u.email) ==> r.Err?
    ensures r.Err? ==> IdTaken(users, u.id) || UsernameTaken(users, u.username) || EmailTaken(users, u.email)
    ensures r.Ok? ==> r.value == users + [u]
    ensures r.Ok? && UniqueKeys(users) ==> UniqueKeys(r.value)
  {
    if IdTaken(users, u.id) then Err(DuplicateKey("_id"))
    else if UsernameTaken(users, u.username) then Err(DuplicateKey("username"))
    else if EmailTaken(users, u.email) then Err(DuplicateKey("email"))
    else Ok(users + [u])
  }

  /** `User.findById(id)`. */
  function FindUserById(users: seq<User>, id: Id): (r: Option<User>)
    ensures r.Some? ==> r.value in users && r.value.id == id
    ensures r.None? <==> !IdTaken(users, id)
  {
    if |users| == 0 then None
    else if users[0].id == id then Some(users[0])
    else
      var rest := FindUserById(users[1..], id);
      assert IdTaken(users, id) <==> users[0].id == id || IdTaken(users[1..], id) by {
        if IdTaken(users[1..], id) {
          var k :| 0 <= k < |users[1..]| && users[1..][k].id == id;
          assert users[k + 1].id == id;
        }
      }
      rest
  }
}
